=== FILE: README.md ===
# database-build: data synchronisation and build-script rules, in Dafny

This project models the core of the AERIUS database build scripts in Dafny and
proves properties of the model.

The main part is the data-file synchronisation script `bin/SyncDBData.rb`. For
every data-source template it:

- substitutes `{data_folder}` with the source and target roots;
- handles the data file first and then its `.info` companion;
- prefers a `.gz` variant on the source and decompresses it after fetching;
- decides between skipping and copying from existence, size and mtime probes;
- retries an item after a reconnect when an attempt raises an exception.

The source is either a local folder or a remote FTP/SFTP/HTTPS session with a
cached current directory. The target is always a local folder.

The second part is the set of pure rules inside the build-script commands of
`bin/ScriptCommands.rb`:

- the build-flag tests;
- version and database-name derivation;
- the `ANALYZE`/`VACUUM` command;
- the `WITH` clause of `CREATE DATABASE`;
- quote escaping for SQL comments;
- `dump_database` parameters and dump file name;
- the table-to-files grouping written as the datasources JSON.

Module layout (one file each):

| file | module | models |
|---|---|---|
| wrappers.dfy | Wrappers | `Option` and `Result` |
| strings.dfy | Strings | `gsub`, `chomp`, an ASCII `downcase`, digit strings |
| paths.dfy | Paths | placeholder substitution, `File.dirname`/`basename`/`extname`, the `.info` companion |
| location.dfy | Location | `connect`: the location pattern, default ports, root checks |
| transport.dfy | Transport | both filesystems, the remote cursor, `file_exists`/`file_size`/`file_time`, `compare_file_time`, `copy_file`, `unzip_gzipped_file` |
| sync.dfy | Sync | `sync_normal`, `sync_gzipped`, and one attempt of the `sync` loop body |
| engine.dfy | Engine | the retry block and the whole `sync` run |
| flags.dfy | BuildFlags | `has_build_flag`, `has_any_build_flag` |
| version.dfy | Versioning | `set_database_name`, `set_version`, `ensure_version` |
| sqltext.dfy | SqlText | quote escaping, `analyze_vacuum_database`, the `CREATE DATABASE` `WITH` clause |
| dump.dfy | DumpParams | `dump_database` parameters and file name |
| datasources.dfy | DatasourcesJson | the grouping in `generate_datasources_json` |

Modelling choices:

- A filesystem is a map from path to `Entry(content, mtime)`. The size is the content length.
- The world (`Transport.World`) holds the following:
  - the local filesystem, shared by a local source and the target, since by default both roots can be the same folder;
  - the remote filesystem and the set of directories the server has;
  - the session: local, or remote with its protocol, its cursor, what its `getdir` shows, and its home folder;
  - the local clock, which stamps a file written without an explicit mtime;
  - the list of requests made.
- A remote probe resolves the basename against the cursor, as the script's transports do.
- `file_exists` issues a `chdir` when `getdir` differs from `File.dirname` of the path. FTP's `getdir` is the directory itself. SFTP and HTTPS keep it with a trailing '/', and a new HTTPS session starts at ''.
- A `chdir` to a directory the server lacks raises on FTP and SFTP. On HTTPS it only records the name.
- `Transport.Consistent` says a session shows its cursor as its transport would. `Transport.DirsCover` says every remote file lies in a directory the server has. The lemmas about files that exist assume both; every operation keeps them.
- `$logger.error` ends the script. It is modelled as the error `Fatal`, which the `rescue` clause does not catch.
- An exception is modelled as the error `Raised`, which the retry block catches.
- Decompression is a parameter `gunzip: Bytes -> Transport.Inflate`. It gives the whole content, a bad header (a Zlib error before the target is opened), or a broken stream with the part written before the error.
- Transient transport failures, such as dropped connections and timeouts, come from a parameter `faults`. It gives the message raised at the start of attempt `k` of item `i`.
- Revision lookups for `#`, `fix_pathname`, Ruby's `downcase` in the build-flag tests and the local directory test are parameters or fields.

The script names its retry bound `max_attempts = 5`. The counter is raised before each attempt, and a failure is retried while the counter is at most 5. That allows six attempts per item, and the model follows the code (`Engine.SyncItem`).

## Model

| member | source | states |
|---|---|---|
| Paths.SubstituteRooted | bin/SyncDBData.rb:347 | a template `{data_folder}<rest>` lands at `root + rest` |
| Paths.ChompSlash | bin/SyncDBData.rb:213-214 | exactly one trailing '/' is removed, and a root without one is unchanged |
| Paths.ProbeReachesFile | bin/SyncDBData.rb:223-225 | probing the basename from cursor `c` reaches `p` iff `c` is the directory of `p` |
| Paths.AppendToBasename | bin/SyncDBData.rb:316 | appending ".gz" keeps the directory and extends only the file name |
| Paths.InfoCompanion | bin/SyncDBData.rb:346 | the companion name ends in ".info" |
| Paths.CompanionShape | bin/SyncDBData.rb:346 | the companion is the descriptor with its extension dropped, plus ".info"; the stem keeps the directory |
| Paths.InfoCompanionIsInfo | bin/SyncDBData.rb:346 | the companion sits in the descriptor's directory and has extension ".info" |
| Paths.InfoCompanionIdempotent | bin/SyncDBData.rb:346 | a descriptor that already names an `.info` file is its own companion |
| Location.ParseGroups | bin/SyncDBData.rb:160 | a match splits the text into well-formed groups that make up exactly the text |
| Location.MatchRestSound | bin/SyncDBData.rb:160 | the host/port/path match is a well-formed split of its input with no scheme |
| Location.ParseRender | bin/SyncDBData.rb:160 | every well-formed set of groups is recovered from the text it makes up |
| Location.Connect | bin/SyncDBData.rb:158-215 | success needs a valid location with filled-in credentials (FTP/SFTP) or an existing local folder, plus an existing target; each root loses one trailing '/', and a local source root that is also the target loses two; no source is an error |
| Location.ConnectParsed | bin/SyncDBData.rb:160-170 | with parsed groups, credentials and a target, `connect` opens host `$2`, port `$4` or the default, and path `$5` or '' |
| Location.ConnectRoundTrip | bin/SyncDBData.rb:173-176 | `scheme://host[:port][/path]` connects to that host, that port or 21/22 by protocol, and that folder |
| Location.SharedRootChompedTwice | bin/SyncDBData.rb:199-214 | with the default target, the local source root and the target root are one string: both roots come out equal, and a doubled trailing '/' is removed entirely |
| Transport.SourceExists | bin/SyncDBData.rb:219-228 | fails with an exception iff a `chdir` is needed and the FTP/SFTP server lacks the directory; otherwise answers whether the probed file exists, with the cursor moved to the directory by that `chdir` |
| Transport.SourceSize | bin/SyncDBData.rb:235-242 | the size of the file the basename probe reaches, or an exception when it is absent |
| Transport.SourceTime | bin/SyncDBData.rb:244-251 | the mtime of the file the basename probe reaches, or an exception when it is absent |
| Transport.TargetSize | bin/SyncDBData.rb:235-237 | the local size, or an exception when the file is absent |
| Transport.TargetTime | bin/SyncDBData.rb:244-246 | the local mtime, or an exception when the file is absent |
| Transport.CompareFileTime | bin/SyncDBData.rb:253-261 | true iff the mtimes are equal for two local files, and iff source ≤ target when the source is remote |
| Transport.CopyFile | bin/SyncDBData.rb:263-279 | succeeds iff the source file is reached; the target then holds the source content with the source mtime; a local copy failure is fatal, a remote one an exception |
| Transport.Unzip | bin/SyncDBData.rb:303-313 | a complete decompression gives the target the `.gz` mtime; a bad header leaves every file as it was; a broken stream leaves the partial output stamped with the current time; every failure raises |
| Transport.Reconnected | bin/SyncDBData.rb:367 | a reconnect puts the cursor back at the folder (FTP, SFTP) or at '' (HTTPS), shows it as the transport's `getdir` does, and changes no file |
| Transport.ExistsPositionsCursor | bin/SyncDBData.rb:223-226 | after a successful `file_exists(p)` the later basename probes reach `p` itself |
| Transport.SeesIffCursorAtDirname | bin/SyncDBData.rb:239-249 | size and mtime probes read `p` iff the cursor is the directory of `p` |
| Transport.ExistsSameDirChdir | bin/SFTPDownloader.rb:54-61 | a second `file_exists` in the same directory succeeds; it repeats the `chdir` iff the first one issued it and the source is SFTP or HTTPS, whose `getdir` ends in '/' |
| Transport.ExistsIntended | bin/SyncDBData.rb:219-228 | `file_exists(p)` fails iff its `chdir` does; otherwise it answers whether `p` exists on the source; it changes no file |
| Transport.GzipProbeDiffers | bin/SyncDBData.rb:316 | the probe of `p.gz` is the probe of `p` plus ".gz", never the plain file |
| Transport.ExistsReadsOnly | bin/SyncDBData.rb:219-228 | `file_exists` requests touch no file other than the probed one |
| Sync.CopyStepEffect | bin/SyncDBData.rb:263-279 | copying a reachable source replaces the target by the source entry, content and mtime |
| Sync.SyncNormal | bin/SyncDBData.rb:281-301 | only the local files change and requests are only appended |
| Sync.SyncNormalDecides | bin/SyncDBData.rb:287-300 | skips, fetching nothing, iff the target exists with the same size and passes the time check; otherwise the target becomes the source file |
| Sync.FetchGzip | bin/SyncDBData.rb:335-337 | every request reads the source `.gz`; a success reports "copied" |
| Sync.FetchGzipEffect | bin/SyncDBData.rb:335-337 | stores the `.gz` next to the target and decompresses it: the local files become `AfterFetch` (complete, bad header, or broken stream), and only a complete decompression succeeds |
| Sync.SyncGzipped | bin/SyncDBData.rb:315-339 | only the local files change and requests are only appended |
| Sync.SyncGzippedDecides | bin/SyncDBData.rb:323-338 | skips iff the target file and target `.gz` exist, the `.gz` sizes agree and the source `.gz` passes the time check against the target plain file; otherwise fetch and decompress, ending as `AfterFetch` says |
| Sync.SyncGzippedReadsOnlyGzip | bin/SyncDBData.rb:315-339 | every request `sync_gzipped` makes reads the source `.gz` |
| Sync.AttemptPlain | bin/SyncDBData.rb:355-362 | keeps the source side as `Attempt` does; "missing, ignored" only happens for `.info` items, and "missing, logged" only for data files under `--continue` |
| Sync.Attempt | bin/SyncDBData.rb:352-363 | keeps the remote files, the clock, the session kind, protocol and folder and its consistency; the missing-file outcomes are as in the policy |
| Sync.AttemptNeverReadsPlain | bin/SyncDBData.rb:353-354 | when the source has the `.gz`, no request of the attempt reads the plain file |
| Sync.AttemptPrefersGzip | bin/SyncDBData.rb:353-354 | when the source has the `.gz`, the attempt skips, or fetches and decompresses it, as `sync_gzipped` decides, with every decompression outcome |
| Sync.AttemptFallsBackToPlain | bin/SyncDBData.rb:355-356 | without a `.gz`, a present plain file is skipped or copied, as `sync_normal` decides |
| Sync.AttemptMissing | bin/SyncDBData.rb:357-362 | when the source has neither file the local files stay as they were, and the attempt raises if the file's directory cannot be entered, or else ignores a missing `.info`, logs a missing data file under `--continue`, and ends the script on it without `--continue` |
| Sync.BrokenGzipKeptOnRetry | bin/SyncDBData.rb:303-312 | a `.gz` whose stream breaks leaves a partial target stamped "now" and raises; the retry after the reconnect then finds that partial file current and skips it |
| Engine.RetryFrom | bin/SyncDBData.rb:349-371 | everything caught is an exception; an exception ends the block only after all retries were used |
| Engine.Retry | bin/SyncDBData.rb:349-371 | at most `MaxRetries` exceptions are caught, and an exception escapes only after all of them |
| Engine.SyncItem | bin/SyncDBData.rb:349-371 | the counter loop makes between 1 and 6 attempts and ends as the retry block does; an escaping exception means 6 attempts |
| Engine.RetryAfterFaults | bin/SyncDBData.rb:364-368 | `n` faults, then a clean attempt: `n` reconnects, the faults caught in order, and the outcome of the attempt on the reconnected source |
| Engine.TwoFaultsThenSuccess | bin/SyncDBData.rb:364-368 | two faults, then success: two reconnects, then the third attempt's outcome |
| Engine.RetryExhausted | bin/SyncDBData.rb:365-370 | when every attempt raises, the last attempt's exception is re-raised unchanged |
| Engine.FatalNotRetried | bin/SyncDBData.rb:361 | a fatal error ends the block at once, with no reconnect |
| Engine.Items | bin/SyncDBData.rb:344-345 | two items per data source |
| Engine.ItemsAt | bin/SyncDBData.rb:344-346 | item 2n is data source n, item 2n+1 its `.info` companion |
| Engine.ItemsAppend | bin/SyncDBData.rb:344-345 | a new data source adds its two items at the end |
| Engine.FoldUntilAppend | bin/SyncDBData.rb:344-345 | processing two lists in turn is processing their concatenation |
| Engine.Next | bin/SyncDBData.rb:349-372 | after an error nothing more happens; otherwise the item's outcome is recorded, or its error ends the run |
| Engine.RunAppendSource | bin/SyncDBData.rb:344-346 | a new data source is processed after all earlier ones, data file before companion, and not at all after an error |
| Engine.RunRecordsEachItem | bin/SyncDBData.rb:343-375 | outcomes are only appended; a run ends without error iff it recorded one outcome per item |
| Engine.RunFinishesAllOrStops | bin/SyncDBData.rb:343-375 | `sync` finishes all 2·n items iff no error escapes |
| BuildFlags.AllSet | bin/ScriptCommands.rb:13 | true iff every argument, case-folded, is a build flag |
| BuildFlags.AnySet | bin/ScriptCommands.rb:17 | true iff some argument, case-folded, is a build flag |
| BuildFlags.HasBuildFlag | bin/ScriptCommands.rb:12-14 | false with no arguments, otherwise true iff every case-folded argument is a build flag |
| BuildFlags.HasAnyBuildFlag | bin/ScriptCommands.rb:16-18 | true iff some case-folded argument is a build flag, so false with no arguments |
| BuildFlags.AllImpliesAny | bin/ScriptCommands.rb:12-18 | all flags set implies some flag set |
| BuildFlags.TestsIgnoreCase | bin/ScriptCommands.rb:12-18 | with an idempotent fold, as `downcase` is, folding the arguments first changes neither test |
| BuildFlags.MoreArgumentsMonotone | bin/ScriptCommands.rb:12-18 | extra arguments can only falsify the all-test and only satisfy the any-test |
| Versioning.ExpandRevision | bin/ScriptCommands.rb:43-44 | text without '#' or outside version control is unchanged |
| Versioning.ExpandRemovesMarkers | bin/ScriptCommands.rb:22-23 | under version control no '#' survives, unless the revision text holds one |
| Versioning.SetDatabaseName | bin/ScriptCommands.rb:20-26 | sets the given name as it is when it has no '#' or there is no version control, and with no '#' left under version control when the revision text has none; nothing else changes |
| Versioning.NamedPassesGuard | bin/ScriptCommands.rb:20-35 | after `set_database_name` the guard passes with the expanded name, and after `set_version` it passes, with a given name kept |
| Versioning.SetVersion | bin/ScriptCommands.rb:41-48 | records the expanded version; names the database only when no name is set, and keeps a given name |
| Versioning.DeriveVersion | bin/ScriptCommands.rb:52-53 | a derived version is never empty |
| Versioning.DeriveVersionIff | bin/ScriptCommands.rb:51-55 | `v` is derived from a name iff `v` is non-empty and the name is `prefix-product-v` |
| Versioning.EnsureVersion | bin/ScriptCommands.rb:50-58 | succeeds iff a version is set or derivable from the name; it never changes the name and otherwise raises "Use --version to supply a version" |
| Versioning.VersionRoundTrip | bin/ScriptCommands.rb:41-55 | setting `v` first names the database `prefix-product-` plus `v` with `#` expanded, and `ensure_version` given that name alone recovers the same settings |
| Versioning.EmptyVersionNotRecovered | bin/ScriptCommands.rb:53 | an empty version cannot be recovered from its default name |
| SqlText.EscapedBodyReadsBack | bin/ScriptCommands.rb:108 | a PostgreSQL reader reads the escaped text back as the original, ending at the closing quote |
| SqlText.LiteralReadsBack | bin/ScriptCommands.rb:413-414 | the quoted comment cannot be broken out of; the text after it stays the statement's own |
| SqlText.EscapeLength | bin/ScriptCommands.rb:261 | escaping adds exactly one character per single quote |
| SqlText.EscapedQuotesPaired | bin/ScriptCommands.rb:108 | the escaped text has no unpaired single quote |
| SqlText.MaintenanceCommand | bin/ScriptCommands.rb:220-231 | succeeds iff a database name is set and the arguments are exactly `[:analyze]`/`[:analyse]` or contain `:vacuum`; without a name it raises "Use --database-name …" whatever the arguments, and otherwise the script's own message |
| SqlText.AnalyzeAlone | bin/ScriptCommands.rb:222-223 | a lone analyze gives `ANALYZE VERBOSE`, not a `VACUUM` |
| SqlText.VacuumFullIff | bin/ScriptCommands.rb:225-226 | the command starts with "VACUUM ", and with "VACUUM FULL " iff asked |
| SqlText.VacuumAnalyzeIff | bin/ScriptCommands.rb:227-228 | the command ends in " ANALYZE" iff asked, and in " VERBOSE" otherwise |
| SqlText.VacuumOptions | bin/ScriptCommands.rb:224-228 | with `:vacuum`, `FULL` iff `:full`, and `ANALYZE` iff `:analyze` or `:analyse` |
| SqlText.VacuumIgnoresOrder | bin/ScriptCommands.rb:224-228 | with `:vacuum`, order and repetition of the arguments do not matter |
| SqlText.AnalyzeMustBeAlone | bin/ScriptCommands.rb:222-230 | a repeated analyze, analyze with `:full`, and no arguments all raise |
| SqlText.WithOptions | bin/ScriptCommands.rb:99-101 | `TEMPLATE` always comes first; `TABLESPACE` iff a tablespace is set; `LC_COLLATE` and `LC_CTYPE` iff a collation is set; nothing else |
| SqlText.WithClauseRendersOptions | bin/ScriptCommands.rb:99-101 | the clause the code appends together is exactly those options, space-separated and quoted |
| DumpParams.PathsIn | bin/ScriptCommands.rb:381 | no more paths than parameters |
| DumpParams.ParseFrom | bin/ScriptCommands.rb:380-391 | accepted iff there is no unknown parameter and at most one path beyond one already chosen; each flag as the symbols say |
| DumpParams.ParseDumpParams | bin/ScriptCommands.rb:374-391 | accepted iff a database name is set, there is no unknown parameter and at most one String; without a name it raises "Use --database-name …"; the path is that String; overwrite iff `:overwrite_existing`; comment updated unless `:dont_update_comment` |
| DumpParams.TwoPathsRefused | bin/ScriptCommands.rb:381-383 | two Strings anywhere in the parameters are refused |
| DumpParams.PathsAppend | bin/ScriptCommands.rb:380-391 | the paths of two parameter lists in turn are the paths of their concatenation |
| DumpParams.DumpFileName | bin/ScriptCommands.rb:393-399 | the file lies in the chosen directory, or the output path, and its name ends in the configured title, or without one in the database name the guard found set followed by ".backup" |
| DumpParams.DumpFileNameByDatabase | bin/ScriptCommands.rb:395-399 | without a title, different databases dump to different files; with one, the database name plays no part |
| DatasourcesJson.IndexOf | bin/ScriptCommands.rb:312 | the found key holds the table; no key holds it when none is found |
| DatasourcesJson.AddSource | bin/ScriptCommands.rb:312 | one source adds at most one key |
| DatasourcesJson.TablesOf | bin/ScriptCommands.rb:312 | reference keys: distinct, and exactly the tables of the sources |
| DatasourcesJson.GroupByTableMatches | bin/ScriptCommands.rb:312 | one key per table in order of first appearance, each listing the base names of that table's files in order |
| DatasourcesJson.FilesOfAbsent | bin/ScriptCommands.rb:312 | a table with no source has no files |
| DatasourcesJson.TotalFilesUpdate | bin/ScriptCommands.rb:312 | replacing one key's list changes the total by the difference in length |
| DatasourcesJson.TotalFilesAppend | bin/ScriptCommands.rb:312 | a new key adds its list length to the total |
| DatasourcesJson.EverySourceListedOnce | bin/ScriptCommands.rb:312 | the lists together hold exactly as many names as there were sources |

## Left out

- The wire protocols of `FTPDownloader`, `SFTPDownloader` and `HTTPSDownloader`, authentication and HTTP status handling. A remote source is a filesystem map plus a cursor, and the transports' own path joining is not part of this model.
- HTTPS: the location is only checked against the pattern and the whole text becomes the base URL. Missing HTTPS credentials only produce a warning, so they are not modelled.
- Location.Connect: requires that the location holds no line break. Ruby's `^` and `$` anchor at line boundaries, so a multi-line location could match on one of its lines; that case is not modelled.
- Location.ParseGroups: requires no line break, for the same reason.
- Location.Connect: the local directory test is a parameter, and the message texts are shortened.
- Paths.Dirname: a file directly under `/` gets "" instead of "/", and repeated slashes are not collapsed. The engine's lemmas only rely on `Resolve(Dirname p, Basename p) == p`.
- Sync.AttemptNeverReadsPlain: requires `Reaches`. A remote path must hold a '/' with no second '/' right before it, and the session must be consistent. A path without '/' is probed as "./name", and a doubled separator is not collapsed; the model identifies neither with the path as written.
- Sync.AttemptPrefersGzip: requires `Reaches` and `DirsCover`, for the same reason and because a file lies in a directory the server has.
- Sync.AttemptFallsBackToPlain: requires `Reaches` and `DirsCover`, for the same reasons.
- Sync.AttemptMissing: requires `Reaches`, for the same reason.
- Sync.BrokenGzipKeptOnRetry: stated for a remote source only. With a local source the time check needs equal mtimes, so the retry copies the `.gz` again.
- Transport.ExistsIntended: requires `Reaches`, for the same reason.
- Transport.ExistsPositionsCursor: requires `Reaches`, for the same reason.
- Transport.ExistsSameDirChdir: requires `Reaches`, for the same reason.
- Transport.SourceExists: FTP's `pwd` and SFTP's `realpath!` are taken to return the directory as it was given. Symbolic links and other server-side renaming are not modelled.
- Location.Connect: every reconnect runs `chomp!('/')` on the same root strings again, so a root with several trailing '/' loses one more per reconnect. The model keeps the roots of the first `connect`.
- Strings.ReplaceAll: the replacement is inserted literally. Ruby's `gsub` reads `\0`-`\9`, `\&`, `\\` and similar sequences in a replacement string, which matters for a root holding a backslash.
- Strings.Downcase: folds ASCII letters only. It serves the case-insensitive scheme match of the location pattern, where Ruby's `/i` also folds a few other letters (such as 'ſ' for 's'). The build-flag tests take Ruby's `downcase` as a parameter instead.
- The clock `now` does not advance during a run: every file written without an explicit mtime gets the same time.
- `make_file_dir` (`FileUtils.mkpath`): directories are not modelled. A map from paths to files needs none.
- Text-mode downloads (`download_text_file`): line-ending conversion is not modelled, and the download copies the bytes.
- The `copy_from.gsub!('/', File::SEPARATOR)` calls: `File::SEPARATOR` is '/' in Ruby on every platform, so they change nothing.
- `COPY /Y` of a file onto itself, and its exit status beyond success or failure, are not modelled.
- Transport.Reconnected: a reconnect always succeeds. A `connect` that fails inside the `rescue` clause would end the script, and that is not modelled.
- Engine.FaultyAttempt: this is the model's fault injection, not code of the script. Transient faults strike only at the start of an attempt, not between its requests. Faults in the middle of an attempt are covered only through failing probes (absent files) and decompression errors.
- Timestamps are integers. `Time.parse` of HTTP headers, and the wall-clock times written into database comments, are not modelled.
- Logger output, `print`/`puts` progress text, command-line parsing, settings loading, `display_help` and `display_info` are not modelled.
- `fix_pathname`, `fix_filename` and `File.expand_path` live in code that is not part of this model.
- DumpParams.DumpFileName: `fixPath` is a parameter, and the `File.expand_path(...).fix_filename` applied to the result is not modelled.
- The rest of `dump_database` (lines 401-418) is not modelled: the existing-file check, the deletion and the comment update touch the filesystem and the database.
- The subversion and git revision lookups behind `#` are parameters of `Versioning.Vcs`.
- PostgreSQL itself is not modelled: `PostgresTools`, `CommentCollector`, `DataSourceCollector`, the RTF/HTML writers, `eval` of `load.rb` and unit-test statistics.
- `generate_datasources_json`: the JSON pretty-printing and the file write are not modelled; only the grouping is.
- `create_database`: the parameter loop and the creation comment are not modelled; only the `WITH` clause is.
- SqlText.EscapedBodyReadsBack: requires that the text after the closing quote does not start with a quote. Otherwise the reader would take the pair as an escaped quote. In the scripts that text is empty or starts with `;`.
- SqlText.LiteralReadsBack: requires the same of the text after the literal.

=== FILE: datasources.dfy ===
/** The grouping behind `generate_datasources_json`: each table name maps to the
    base names of the data files that load it. */
module DatasourcesJson {

  import opened Wrappers
  import Paths

  /** One data source the collector found: a data file and the table it loads. */
  datatype Source = Source(file: string, table: string)

  /** One key of the JSON object, in insertion order, with its list of files. */
  datatype Group = Group(table: string, files: seq<string>)

  /** Where table `t` sits among the keys so far. */
  function IndexOf(gs: seq<Group>, t: string): (r: Option<nat>)
    ensures r.Some? ==> r.value < |gs| && gs[r.value].table == t
    ensures r.None? ==> forall k :: 0 <= k < |gs| ==> gs[k].table != t
    decreases |gs|
  {
    if |gs| == 0 then None
    else if gs[|gs| - 1].table == t then Some(|gs| - 1)
    else IndexOf(gs[..|gs| - 1], t)
  }

  /** One step of the `reduce`: `(accum[tablename] ||= []) << File.basename(filename)`. */
  function AddSource(gs: seq<Group>, s: Source): (r: seq<Group>)
    ensures |r| == |gs| || |r| == |gs| + 1
  {
    var name := Paths.Basename(s.file);
    match IndexOf(gs, s.table)
    case Some(k) => gs[k := Group(gs[k].table, gs[k].files + [name])]
    case None => gs + [Group(s.table, [name])]
  }

  /** The whole `reduce`, over the sources in the collector's order. */
  function GroupByTable(ss: seq<Source>): seq<Group>
    decreases |ss|
  {
    if |ss| == 0 then [] else AddSource(GroupByTable(ss[..|ss| - 1]), ss[|ss| - 1])
  }

  /** Reference: the tables in order of first appearance. */
  function TablesOf(ss: seq<Source>): (r: seq<string>)
    ensures forall i, j :: 0 <= i < j < |r| ==> r[i] != r[j]
    ensures forall t :: t in r <==> exists i :: 0 <= i < |ss| && ss[i].table == t
    decreases |ss|
  {
    if |ss| == 0 then []
    else
      var prev := TablesOf(ss[..|ss| - 1]);
      var t := ss[|ss| - 1].table;
      assert forall i :: 0 <= i < |ss| - 1 ==> ss[..|ss| - 1][i] == ss[i];
      if t in prev then prev else prev + [t]
  }

  /** Reference: the base names of the files of table `t`, in order. */
  function FilesOf(ss: seq<Source>, t: string): (r: seq<string>)
    decreases |ss|
  {
    if |ss| == 0 then []
    else FilesOf(ss[..|ss| - 1], t)
         + (if ss[|ss| - 1].table == t then [Paths.Basename(ss[|ss| - 1].file)] else [])
  }

  /** The grouping agrees with the reference: one key per table, in order of
      first appearance, each holding exactly the base names of that table's
      files in their original order. */
  lemma {:induction false} GroupByTableMatches(ss: seq<Source>)
    ensures var gs := GroupByTable(ss);
      && |gs| == |TablesOf(ss)|
      && forall k :: 0 <= k < |gs| ==> gs[k].table == TablesOf(ss)[k] && gs[k].files == FilesOf(ss, gs[k].table)
    decreases |ss|
  {
    if |ss| > 0 {
      var prefix, s := ss[..|ss| - 1], ss[|ss| - 1];
      GroupByTableMatches(prefix);
      var gs := GroupByTable(prefix);
      var gs' := GroupByTable(ss);
      var name := Paths.Basename(s.file);
      assert gs' == AddSource(gs, s);
      match IndexOf(gs, s.table)
      case Some(k) =>
        assert s.table in TablesOf(prefix);
        forall j | 0 <= j < |gs'|
          ensures gs'[j].table == TablesOf(ss)[j] && gs'[j].files == FilesOf(ss, gs'[j].table)
        {
          if j == k {
            assert gs'[j].files == FilesOf(prefix, s.table) + [name];
          } else {
            assert gs'[j] == gs[j];
          }
        }
      case None =>
        assert s.table !in TablesOf(prefix);
        forall j | 0 <= j < |gs'|
          ensures gs'[j].table == TablesOf(ss)[j] && gs'[j].files == FilesOf(ss, gs'[j].table)
        {
          if j == |gs| {
            assert FilesOf(prefix, s.table) == [] by {
              FilesOfAbsent(prefix, s.table);
            }
          } else {
            assert gs'[j] == gs[j];
          }
        }
    }
  }

  /** A table with no sources has no files. */
  lemma {:induction false} FilesOfAbsent(ss: seq<Source>, t: string)
    requires t !in TablesOf(ss)
    ensures FilesOf(ss, t) == []
    decreases |ss|
  {
    if |ss| > 0 {
      var prefix := ss[..|ss| - 1];
      assert ss[|ss| - 1].table != t;
      FilesOfAbsent(prefix, t);
    }
  }

  /** Number of file names listed under all keys. */
  function TotalFiles(gs: seq<Group>): nat
    decreases |gs|
  {
    if |gs| == 0 then 0 else |gs[0].files| + TotalFiles(gs[1..])
  }

  lemma {:induction false} TotalFilesUpdate(gs: seq<Group>, k: nat, g: Group)
    requires k < |gs|
    ensures TotalFiles(gs[k := g]) == TotalFiles(gs) - |gs[k].files| + |g.files|
    decreases |gs|
  {
    if k == 0 {
      assert gs[k := g][1..] == gs[1..];
    } else {
      assert gs[k := g][1..] == gs[1..][k - 1 := g];
      TotalFilesUpdate(gs[1..], k - 1, g);
    }
  }

  lemma {:induction false} TotalFilesAppend(gs: seq<Group>, g: Group)
    ensures TotalFiles(gs + [g]) == TotalFiles(gs) + |g.files|
    decreases |gs|
  {
    if |gs| == 0 {
      assert gs + [g] == [g];
    } else {
      assert (gs + [g])[1..] == gs[1..] + [g];
      TotalFilesAppend(gs[1..], g);
    }
  }

  /** Every source is listed exactly once: the lists together hold as many
      names as there were sources. */
  lemma {:induction false} EverySourceListedOnce(ss: seq<Source>)
    ensures TotalFiles(GroupByTable(ss)) == |ss|
    decreases |ss|
  {
    if |ss| > 0 {
      var prefix, s := ss[..|ss| - 1], ss[|ss| - 1];
      EverySourceListedOnce(prefix);
      var gs := GroupByTable(prefix);
      var name := Paths.Basename(s.file);
      match IndexOf(gs, s.table)
      case Some(k) => TotalFilesUpdate(gs, k, Group(gs[k].table, gs[k].files + [name]));
      case None => TotalFilesAppend(gs, Group(s.table, [name]));
    }
  }
}

=== FILE: dump.dfy ===
/** The parameters `dump_database` accepts and the file it dumps to. */
module DumpParams {

  import opened Wrappers
  import opened Strings
  import Versioning

  /** An argument of `dump_database`: a String (the directory to dump into), one
      of the two symbols it knows, or anything else. */
  datatype DumpParam = PathParam(path: string) | OverwriteExisting | DontUpdateComment | OtherParam

  /** What the parameters decide. */
  datatype DumpOptions = DumpOptions(path: Option<string>, overwrite: bool, updateComment: bool)

  const Defaults := DumpOptions(None, false, true)

  const ExtraPathError := "Unknown extra String parameter given to dump_database()"
  const UnknownParamError := "Unknown parameter given to dump_database()"

  /** The String parameters, in order. */
  function PathsIn(ps: seq<DumpParam>): (r: seq<string>)
    ensures |r| <= |ps|
    decreases |ps|
  {
    if |ps| == 0 then []
    else (if ps[0].PathParam? then [ps[0].path] else []) + PathsIn(ps[1..])
  }

  /** The parameter loop, from the options decided so far. An error is logged
      for the first parameter that is not accepted, and that ends the script. */
  function ParseFrom(acc: DumpOptions, ps: seq<DumpParam>): (r: Result<DumpOptions, string>)
    ensures r.Success? <==> OtherParam !in ps && |PathsIn(ps)| <= (if acc.path.None? then 1 else 0)
    ensures r.Success? ==> r.value.path == (if |PathsIn(ps)| == 1 then Some(PathsIn(ps)[0]) else acc.path)
    ensures r.Success? ==> (r.value.overwrite <==> acc.overwrite || OverwriteExisting in ps)
    ensures r.Success? ==> (r.value.updateComment <==> acc.updateComment && DontUpdateComment !in ps)
    ensures r.Failure? ==> r.error == ExtraPathError || r.error == UnknownParamError
    decreases |ps|
  {
    if |ps| == 0 then Success(acc)
    else match ps[0]
      case PathParam(p) =>
        if acc.path.Some? then Failure(ExtraPathError)
        else ParseFrom(acc.(path := Some(p)), ps[1..])
      case OverwriteExisting => ParseFrom(acc.(overwrite := true), ps[1..])
      case DontUpdateComment => ParseFrom(acc.(updateComment := false), ps[1..])
      case OtherParam => Failure(UnknownParamError)
  }

  /** `dump_database(*params)`: a database name must have been set, then at most
      one String, the two known symbols, and nothing else. */
  function ParseDumpParams(databaseName: Option<string>, ps: seq<DumpParam>): (r: Result<DumpOptions, string>)
    ensures r.Success? <==> databaseName.Some? && OtherParam !in ps && |PathsIn(ps)| <= 1
    ensures databaseName.None? ==> r == Failure(Versioning.MissingNameError)
    ensures r.Success? ==> r.value.path == (if |PathsIn(ps)| == 1 then Some(PathsIn(ps)[0]) else None)
    ensures r.Success? ==> (r.value.overwrite <==> OverwriteExisting in ps)
    ensures r.Success? ==> (r.value.updateComment <==> DontUpdateComment !in ps)
  {
    match Versioning.GetDatabaseName(databaseName)
    case Failure(e) => Failure(e)
    case Success(_) => ParseFrom(Defaults, ps)
  }

  /** A second String is refused wherever the two appear: the dump never
      starts. */
  lemma TwoPathsRefused(db: Option<string>, ps: seq<DumpParam>, a: string, b: string, qs: seq<DumpParam>)
    ensures ParseDumpParams(db, ps + [PathParam(a)] + qs + [PathParam(b)]).Failure?
  {
    PathsAppend(ps + [PathParam(a)] + qs, [PathParam(b)]);
    PathsAppend(ps + [PathParam(a)], qs);
    PathsAppend(ps, [PathParam(a)]);
    assert PathsIn([PathParam(a)]) == [a];
    assert PathsIn([PathParam(b)]) == [b];
  }

  lemma {:induction false} PathsAppend(ps: seq<DumpParam>, qs: seq<DumpParam>)
    ensures PathsIn(ps + qs) == PathsIn(ps) + PathsIn(qs)
    decreases |ps|
  {
    if |ps| == 0 {
      assert ps + qs == qs;
    } else {
      var head := if ps[0].PathParam? then [ps[0].path] else [];
      assert (ps + qs)[0] == ps[0];
      assert (ps + qs)[1..] == ps[1..] + qs;
      assert PathsIn(ps + qs) == head + PathsIn(ps[1..] + qs);
      PathsAppend(ps[1..], qs);
      assert head + (PathsIn(ps[1..]) + PathsIn(qs)) == (head + PathsIn(ps[1..])) + PathsIn(qs);
    }
  }

  /** The file `dump_database` writes, before the path is made absolute: the
      chosen directory (normalised by `fixPath`), then the configured file title,
      or else the database name with `.backup`. `databaseName` is the name the
      guard of `ParseDumpParams` found set. */
  function DumpFileName(fixPath: string -> string, outputPath: string, opts: DumpOptions,
                        databaseName: string, fileTitle: Option<string>): (r: string)
    ensures var dir := fixPath(if opts.path.Some? then opts.path.value else outputPath);
      HasPrefix(r, dir) && (fileTitle.None? ==> HasSuffix(r, ".backup"))
    ensures fileTitle.None? ==> HasSuffix(r, databaseName + ".backup")
    ensures fileTitle.Some? ==> HasSuffix(r, fileTitle.value)
  {
    var dir := fixPath(if opts.path.Some? then opts.path.value else outputPath);
    match fileTitle
    case None => dir + databaseName + ".backup"
    case Some(title) => dir + title
  }

  /** Without a configured title, different databases never dump to the same
      file; with one, the database name plays no part. */
  lemma DumpFileNameByDatabase(fixPath: string -> string, outputPath: string, opts: DumpOptions,
                               db1: string, db2: string, fileTitle: Option<string>)
    ensures fileTitle.None? ==>
      (DumpFileName(fixPath, outputPath, opts, db1, fileTitle) == DumpFileName(fixPath, outputPath, opts, db2, fileTitle)
       <==> db1 == db2)
    ensures fileTitle.Some? ==>
      DumpFileName(fixPath, outputPath, opts, db1, fileTitle) == DumpFileName(fixPath, outputPath, opts, db2, fileTitle)
  {
    var dir := fixPath(if opts.path.Some? then opts.path.value else outputPath);
    if fileTitle.None? {
      var n1, n2 := DumpFileName(fixPath, outputPath, opts, db1, fileTitle), DumpFileName(fixPath, outputPath, opts, db2, fileTitle);
      if n1 == n2 {
        assert |db1| == |db2|;
        assert n1[|dir|..|dir| + |db1|] == db1;
        assert n2[|dir|..|dir| + |db2|] == db2;
      }
    }
  }
}

=== FILE: engine.dfy ===
/** The `sync` loop: every data source and then its `.info` companion, each tried
    again after a reconnect when an attempt raises, and the run ending at the
    first error that escapes. */
module Engine {

  import opened Wrappers
  import opened Transport
  import opened Sync
  import Paths

  /** `max_attempts` in the script. It bounds the retries, not the attempts: the
      counter is raised before each attempt and a failure is retried while the
      counter is at most this value. */
  const MaxRetries: nat := 5

  /** Transient exceptions from outside the model (a dropped connection, a
      timeout): the message raised at the start of attempt `k` of item `i`, if any. */
  type Faults = (nat, nat) -> Option<string>

  /** The body of the `begin` block for one item; the run uses `Sync.Attempt`. */
  type AttemptFn = (World, Item) -> Step<Action>

  /** Fault injection for the model, not a part of the script: one attempt, which
      a transient fault cuts short before it does anything. */
  function FaultyAttempt(attempt: AttemptFn, w: World, item: Item, fault: Option<string>): (s: Step<Action>)
    ensures fault.Some? ==> s == Step(w, Failure(Raised(fault.value)))
    ensures fault.None? ==> s == attempt(w, item)
  {
    match fault
    case Some(m) => Step(w, Failure(Raised(m)))
    case None => attempt(w, item)
  }

  /** The last attempt at an item and the exceptions caught before it. */
  datatype Tries = Tries(last: Step<Action>, caught: seq<Error>)

  predicate IsRaised(s: Step<Action>) {
    s.result.Failure? && s.result.error.Raised?
  }

  /** The `begin … rescue … retry` block from the attempt after `counter`: a raised
      exception is caught, the source is reconnected and the item is tried again
      while the raised counter is at most `MaxRetries`; otherwise the attempt's
      outcome, exception included, is what the block ends with. */
  function RetryFrom(attempt: AttemptFn, w: World, item: Item, faults: Faults, i: nat, counter: nat): (t: Tries)
    requires counter <= MaxRetries
    ensures |t.caught| <= MaxRetries - counter
    ensures forall j :: 0 <= j < |t.caught| ==> t.caught[j].Raised?
    ensures !IsRaised(t.last) || |t.caught| == MaxRetries - counter
    decreases MaxRetries - counter
  {
    var k := counter + 1;
    var s := FaultyAttempt(attempt, w, item, faults(i, k));
    if IsRaised(s) && k <= MaxRetries then
      var t := RetryFrom(attempt, Reconnected(s.world), item, faults, i, k);
      Tries(t.last, [s.result.error] + t.caught)
    else Tries(s, [])
  }

  /** The whole retry block for item number `i`. */
  function Retry(attempt: AttemptFn, w: World, item: Item, faults: Faults, i: nat): (t: Tries)
    ensures |t.caught| <= MaxRetries
    ensures IsRaised(t.last) ==> |t.caught| == MaxRetries
  {
    RetryFrom(attempt, w, item, faults, i, 0)
  }

  /** The retry block as the script runs it: a counter, a loop and a reconnect
      before every retry. It returns the last attempt and the number of attempts. */
  method SyncItem(attempt: AttemptFn, w: World, item: Item, faults: Faults, i: nat) returns (last: Step<Action>, attempts: nat)
    ensures last == Retry(attempt, w, item, faults, i).last
    ensures attempts == |Retry(attempt, w, item, faults, i).caught| + 1
    ensures 1 <= attempts <= MaxRetries + 1
    ensures IsRaised(last) ==> attempts == MaxRetries + 1
  {
    var counter := 0;
    var cur := w;
    while true
      invariant counter <= MaxRetries
      invariant RetryFrom(attempt, cur, item, faults, i, counter).last == Retry(attempt, w, item, faults, i).last
      invariant counter + |RetryFrom(attempt, cur, item, faults, i, counter).caught| == |Retry(attempt, w, item, faults, i).caught|
      decreases MaxRetries - counter
    {
      counter := counter + 1;
      var s := FaultyAttempt(attempt, cur, item, faults(i, counter));
      if IsRaised(s) && counter <= MaxRetries {
        cur := Reconnected(s.world);
      } else {
        return s, counter;
      }
    }
  }

  /** `n` reconnects in a row. */
  function Reconnects(w: World, n: nat): World
    decreases n
  {
    if n == 0 then w else Reconnects(Reconnected(w), n - 1)
  }

  /** Transient faults on attempts `counter + 1` to `j`, and attempt `j + 1` free of
      faults and not raising, make the block reconnect once per fault and end with
      attempt `j + 1`, run on the reconnected source, having caught exactly those
      faults. */
  lemma {:induction false} RetryAfterFaults(attempt: AttemptFn, w: World, item: Item, faults: Faults, i: nat, counter: nat, j: nat)
    requires counter <= j <= MaxRetries
    requires forall k :: counter < k <= j ==> faults(i, k).Some?
    requires faults(i, j + 1).None?
    requires !IsRaised(attempt(Reconnects(w, j - counter), item))
    ensures RetryFrom(attempt, w, item, faults, i, counter).last == attempt(Reconnects(w, j - counter), item)
    ensures |RetryFrom(attempt, w, item, faults, i, counter).caught| == j - counter
    ensures forall k :: 0 <= k < j - counter ==>
      RetryFrom(attempt, w, item, faults, i, counter).caught[k] == Raised(faults(i, counter + 1 + k).value)
    decreases j - counter
  {
    if counter < j {
      assert Reconnects(w, j - counter) == Reconnects(Reconnected(w), j - (counter + 1));
      RetryAfterFaults(attempt, Reconnected(w), item, faults, i, counter + 1, j);
      var rest := RetryFrom(attempt, Reconnected(w), item, faults, i, counter + 1);
      assert RetryFrom(attempt, w, item, faults, i, counter)
          == Tries(rest.last, [Raised(faults(i, counter + 1).value)] + rest.caught);
    }
  }

  /** Two transient failures and then a clean attempt: the item ends as the third
      attempt ends, after exactly two reconnects, with no exception left over when
      that attempt succeeds. */
  lemma TwoFaultsThenSuccess(attempt: AttemptFn, w: World, item: Item, faults: Faults, i: nat)
    requires faults(i, 1).Some? && faults(i, 2).Some? && faults(i, 3).None?
    requires attempt(Reconnected(Reconnected(w)), item).result.Success?
    ensures var t := Retry(attempt, w, item, faults, i);
      var w2 := Reconnected(Reconnected(w));
      && t.last == attempt(w2, item)
      && t.caught == [Raised(faults(i, 1).value), Raised(faults(i, 2).value)]
      && w2.calls == w.calls + [Reconnect, Reconnect]
  {
    assert Reconnects(w, 2) == Reconnected(Reconnected(w));
    RetryAfterFaults(attempt, w, item, faults, i, 0, 2);
  }

  /** Re-raise: when every attempt raises, the block makes `MaxRetries + 1` attempts
      and ends with the last attempt's exception, unchanged. */
  lemma {:induction false} RetryExhausted(attempt: AttemptFn, w: World, item: Item, faults: Faults, i: nat, counter: nat)
    requires counter <= MaxRetries
    requires forall k :: counter < k <= MaxRetries + 1 ==> faults(i, k).Some?
    ensures var t := RetryFrom(attempt, w, item, faults, i, counter);
      && t.last.result == Failure(Raised(faults(i, MaxRetries + 1).value))
      && |t.caught| == MaxRetries - counter
    decreases MaxRetries - counter
  {
    if counter < MaxRetries {
      RetryExhausted(attempt, Reconnected(w), item, faults, i, counter + 1);
    }
  }

  /** A fatal error is not retried: it ends the block at the attempt that made it. */
  lemma FatalNotRetried(attempt: AttemptFn, w: World, item: Item, faults: Faults, i: nat)
    requires faults(i, 1).None?
    requires attempt(w, item).result.Failure? && attempt(w, item).result.error.Fatal?
    ensures Retry(attempt, w, item, faults, i) == Tries(attempt(w, item), [])
  {
  }

  /** The items of the data sources in processing order: each data source as
      configured, then its `.info` companion. */
  function Items(ds: seq<string>): (r: seq<Item>)
    ensures |r| == 2 * |ds|
  {
    if |ds| == 0 then []
    else [Item(ds[0], false), Item(ds[0], true)] + Items(ds[1..])
  }

  /** Item `2n` is data source `n`, and item `2n + 1` is its `.info` companion,
      whose template has the extension replaced by ".info". */
  lemma {:induction false} ItemsAt(ds: seq<string>, n: nat)
    requires n < |ds|
    ensures Items(ds)[2 * n] == Item(ds[n], false)
    ensures Items(ds)[2 * n + 1] == Item(ds[n], true)
    ensures Template(Items(ds)[2 * n + 1]) == Paths.InfoCompanion(ds[n])
    decreases n
  {
    if n > 0 {
      ItemsAt(ds[1..], n - 1);
      assert Items(ds)[2 * n] == Items(ds[1..])[2 * (n - 1)];
      assert Items(ds)[2 * n + 1] == Items(ds[1..])[2 * (n - 1) + 1];
    }
  }

  /** Adding a data source at the end adds its two items at the end. */
  lemma {:induction false} ItemsAppend(ds: seq<string>, d: string)
    ensures Items(ds + [d]) == Items(ds) + [Item(d, false), Item(d, true)]
    decreases |ds|
  {
    if |ds| == 0 {
      assert ds + [d] == [d];
    } else {
      assert (ds + [d])[1..] == ds[1..] + [d];
      ItemsAppend(ds[1..], d);
    }
  }

  function AttemptOf(cfg: Config): AttemptFn {
    (w: World, item: Item) => Attempt(cfg, w, item)
  }

  /** The state of a run: the world, what each finished item did, and the error
      that stopped the run, if any. */
  datatype RunResult = RunResult(world: World, done: seq<Action>, result: Result<(), Error>)

  /** A run that has not started. */
  function Start(w: World): RunResult {
    RunResult(w, [], Success(()))
  }

  /** Runs `next` over the items numbered from `i`, starting in state `s`, until
      `stopped` holds. */
  function FoldUntil<S, I>(next: (S, I, nat) -> S, stopped: S -> bool, s: S, items: seq<I>, i: nat): (s': S)
    ensures stopped(s) ==> s' == s
    decreases |items|
  {
    if stopped(s) || |items| == 0 then s
    else FoldUntil(next, stopped, next(s, items[0], i), items[1..], i + 1)
  }

  /** Folding over two lists one after the other is folding over their
      concatenation. */
  lemma {:induction false} FoldUntilAppend<S, I>(next: (S, I, nat) -> S, stopped: S -> bool, s: S, a: seq<I>, b: seq<I>, i: nat)
    ensures FoldUntil(next, stopped, s, a + b, i)
         == FoldUntil(next, stopped, FoldUntil(next, stopped, s, a, i), b, i + |a|)
    decreases |a|
  {
    if !stopped(s) {
      if |a| == 0 {
        assert a + b == b;
      } else {
        assert (a + b)[0] == a[0];
        assert (a + b)[1..] == a[1..] + b;
        FoldUntilAppend(next, stopped, next(s, a[0], i), a[1..], b, i + 1);
      }
    }
  }

  /** Item number `i` of a run: unless an earlier error has ended the run, its
      retry block either finishes it or ends the run with the error that escaped. */
  function Next(attempt: AttemptFn, faults: Faults, r: RunResult, item: Item, i: nat): (r': RunResult)
    ensures r.result.Failure? ==> r' == r
    ensures r.result.Success? ==>
      var last := Retry(attempt, r.world, item, faults, i).last;
      && r'.world == last.world
      && (r'.result.Success? <==> last.result.Success?)
      && (last.result.Success? ==> r'.done == r.done + [last.result.value])
      && (last.result.Failure? ==> r'.done == r.done && r'.result.error == last.result.error)
  {
    if r.result.Failure? then r
    else
      var t := Retry(attempt, r.world, item, faults, i);
      match t.last.result
      case Failure(e) => RunResult(t.last.world, r.done, Failure(e))
      case Success(a) => RunResult(t.last.world, r.done + [a], Success(()))
  }

  predicate Stopped(r: RunResult) {
    r.result.Failure?
  }

  function NextOf(attempt: AttemptFn, faults: Faults): (RunResult, Item, nat) -> RunResult {
    (r: RunResult, item: Item, n: nat) => Next(attempt, faults, r, item, n)
  }

  /** `sync`: all data sources, each followed by its `.info` companion, until the
      first error that escapes an item's retry block. */
  function Run(cfg: Config, w: World, ds: seq<string>, faults: Faults): RunResult {
    FoldUntil(NextOf(AttemptOf(cfg), faults), Stopped, Start(w), Items(ds), 0)
  }

  /** Processing order, for any per-item step: the run over one more data source
      is the run over the others, then the new source, then its `.info`
      companion; once the run has stopped, the new source is left untouched. */
  lemma RunAppendSource<S>(next: (S, Item, nat) -> S, stopped: S -> bool, s: S, ds: seq<string>, d: string)
    ensures var r := FoldUntil(next, stopped, s, Items(ds), 0);
      && FoldUntil(next, stopped, s, Items(ds + [d]), 0)
         == FoldUntil(next, stopped, r, [Item(d, false), Item(d, true)], 2 * |ds|)
      && (stopped(r) ==> FoldUntil(next, stopped, s, Items(ds + [d]), 0) == r)
  {
    ItemsAppend(ds, d);
    FoldUntilAppend(next, stopped, s, Items(ds), [Item(d, false), Item(d, true)], 0);
  }

  /** A run records one action per item it finished, in order: a run that ends
      without error has finished every item, and one that stops on an error has
      finished fewer. */
  lemma {:induction false} RunRecordsEachItem(attempt: AttemptFn, faults: Faults, r: RunResult, items: seq<Item>, i: nat)
    requires r.result.Success?
    ensures var r' := FoldUntil(NextOf(attempt, faults), Stopped, r, items, i);
      && r.done <= r'.done
      && |r'.done| <= |r.done| + |items|
      && (r'.result.Success? <==> |r'.done| == |r.done| + |items|)
    decreases |items|
  {
    if |items| > 0 {
      var r1 := Next(attempt, faults, r, items[0], i);
      if r1.result.Success? {
        RunRecordsEachItem(attempt, faults, r1, items[1..], i + 1);
      }
    }
  }

  /** A whole run finishes every data source and its companion exactly when no
      error escapes; otherwise it records fewer actions than items. */
  lemma RunFinishesAllOrStops(cfg: Config, w: World, ds: seq<string>, faults: Faults)
    ensures var r := Run(cfg, w, ds, faults);
      && |r.done| <= 2 * |ds|
      && (r.result.Success? <==> |r.done| == 2 * |ds|)
  {
    RunRecordsEachItem(AttemptOf(cfg), faults, Start(w), Items(ds), 0);
  }
}

=== FILE: flags.dfy ===
/** The build-flag tests a build script uses to switch parts of the build on
    and off. A flag argument is compared by its name, downcased, against the
    set of flags given on the command line. */
module BuildFlags {

  import opened Strings

  /** Ruby's `String#downcase`, which folds the letters of every script; it is a
      parameter of the tests, and `Strings.Downcase` (ASCII letters only) is one
      instance of it. */
  type CaseFold = string -> string

  /** A fold that is idempotent, as `downcase` is. */
  ghost predicate Idempotent(downcase: CaseFold) {
    forall s :: downcase(downcase(s)) == downcase(s)
  }

  /** Whether flag `f` (any Ruby value, by its `to_s`) is among the build flags. */
  predicate IsSet(downcase: CaseFold, buildFlags: set<string>, f: string) {
    downcase(f) in buildFlags
  }

  /** Every flag among `args` is set, checked one argument at a time. */
  function AllSet(downcase: CaseFold, buildFlags: set<string>, args: seq<string>): (b: bool)
    ensures b <==> forall i :: 0 <= i < |args| ==> IsSet(downcase, buildFlags, args[i])
    decreases |args|
  {
    if |args| == 0 then true
    else IsSet(downcase, buildFlags, args[0]) && AllSet(downcase, buildFlags, args[1..])
  }

  /** Some flag among `args` is set, checked one argument at a time. */
  function AnySet(downcase: CaseFold, buildFlags: set<string>, args: seq<string>): (b: bool)
    ensures b <==> exists i :: 0 <= i < |args| && IsSet(downcase, buildFlags, args[i])
    decreases |args|
  {
    if |args| == 0 then false
    else IsSet(downcase, buildFlags, args[0]) || AnySet(downcase, buildFlags, args[1..])
  }

  /** `has_build_flag(*flag)`: false when called without arguments, otherwise
      true exactly when every argument names a set flag. */
  function HasBuildFlag(downcase: CaseFold, buildFlags: set<string>, args: seq<string>): (b: bool)
    ensures b <==> |args| > 0 && forall i :: 0 <= i < |args| ==> downcase(args[i]) in buildFlags
  {
    |args| > 0 && AllSet(downcase, buildFlags, args)
  }

  /** `has_any_build_flag(*flag)`: false when called without arguments,
      otherwise true exactly when at least one argument names a set flag. */
  function HasAnyBuildFlag(downcase: CaseFold, buildFlags: set<string>, args: seq<string>): (b: bool)
    ensures b <==> exists i :: 0 <= i < |args| && downcase(args[i]) in buildFlags
  {
    |args| > 0 && AnySet(downcase, buildFlags, args)
  }

  /** Asking for all of some flags implies asking for any of them. */
  lemma AllImpliesAny(downcase: CaseFold, buildFlags: set<string>, args: seq<string>)
    ensures HasBuildFlag(downcase, buildFlags, args) ==> HasAnyBuildFlag(downcase, buildFlags, args)
  {
    if HasBuildFlag(downcase, buildFlags, args) {
      assert IsSet(downcase, buildFlags, args[0]);
    }
  }

  /** The tests ignore the case in which the script spells a flag. */
  lemma TestsIgnoreCase(downcase: CaseFold, buildFlags: set<string>, args: seq<string>)
    requires Idempotent(downcase)
    ensures var lower := seq(|args|, i requires 0 <= i < |args| => downcase(args[i]));
      && HasBuildFlag(downcase, buildFlags, lower) == HasBuildFlag(downcase, buildFlags, args)
      && HasAnyBuildFlag(downcase, buildFlags, lower) == HasAnyBuildFlag(downcase, buildFlags, args)
  {
    var lower := seq(|args|, i requires 0 <= i < |args| => downcase(args[i]));
    assert forall i :: 0 <= i < |args| ==> downcase(lower[i]) == downcase(args[i]);
    if HasAnyBuildFlag(downcase, buildFlags, args) {
      var i :| 0 <= i < |args| && downcase(args[i]) in buildFlags;
      assert downcase(lower[i]) in buildFlags;
    }
    if HasAnyBuildFlag(downcase, buildFlags, lower) {
      var i :| 0 <= i < |lower| && downcase(lower[i]) in buildFlags;
      assert downcase(args[i]) in buildFlags;
    }
  }

  /** Extra arguments can only make `has_build_flag` harder and
      `has_any_build_flag` easier to satisfy. */
  lemma MoreArgumentsMonotone(downcase: CaseFold, buildFlags: set<string>, args: seq<string>, more: seq<string>)
    requires |args| > 0
    ensures HasBuildFlag(downcase, buildFlags, args + more) ==> HasBuildFlag(downcase, buildFlags, args)
    ensures HasAnyBuildFlag(downcase, buildFlags, args) ==> HasAnyBuildFlag(downcase, buildFlags, args + more)
  {
    if HasBuildFlag(downcase, buildFlags, args + more) {
      forall i | 0 <= i < |args|
        ensures downcase(args[i]) in buildFlags
      {
        assert (args + more)[i] == args[i];
      }
    }
    if HasAnyBuildFlag(downcase, buildFlags, args) {
      var i :| 0 <= i < |args| && downcase(args[i]) in buildFlags;
      assert (args + more)[i] == args[i];
    }
  }

  /** The ASCII fold of `Strings` is a case fold the tests can use. */
  lemma AsciiFoldIdempotent()
    ensures Idempotent(Downcase)
  {
  }
}

=== FILE: location.dfy ===
/** The `connect` step of the sync script: validating the configured source and
    target locations and splitting `scheme://host[:port][/path]`. */
module Location {

  import opened Wrappers
  import opened Strings
  import Paths

  /** Which `--from-…` option selected the source, if any. */
  datatype SourceKind = Ftp | Sftp | Https | LocalFolder | NoSource

  /** The match groups of `^(scheme://)?([^/:]+)(:(\d+))?(/.*)?$`, matched without
      regard to case: group 1, group 2, group 4 and group 5. */
  datatype Groups = Groups(scheme: Option<string>, host: string, port: Option<string>, path: Option<string>)

  predicate IsHostChar(c: char) {
    c != '/' && c != ':'
  }

  /** Text matched by groups 2, 4 and 5: the host, then ':' and the port, then the path. */
  function RenderRest(g: Groups): string {
    g.host
    + (if g.port.Some? then ":" + g.port.value else "")
    + (if g.path.Some? then g.path.value else "")
  }

  /** Text matched by the pattern is exactly the groups written one after another. */
  function Render(g: Groups): string {
    (if g.scheme.Some? then g.scheme.value else "") + RenderRest(g)
  }

  /** Group 1 for the given scheme name: the name and "://", in any case. */
  predicate SchemeOk(name: string, sc: string) {
    Downcase(sc) == Downcase(name + "://")
  }

  /** Groups 2, 4 and 5 as the pattern can produce them. */
  predicate RestOk(g: Groups) {
    && IsHost(g.host)
    && (g.port.Some? ==> |g.port.value| > 0 && AllDigits(g.port.value))
    && (g.path.Some? ==> |g.path.value| > 0 && g.path.value[0] == '/')
  }

  /** Groups the pattern can produce for the given scheme name. */
  predicate WellFormed(name: string, g: Groups) {
    (g.scheme.Some? ==> SchemeOk(name, g.scheme.value)) && RestOk(g)
  }

  /** Group 2: one or more characters other than '/' and ':'. */
  predicate IsHost(h: string) {
    |h| > 0 && forall i :: 0 <= i < |h| ==> IsHostChar(h[i])
  }

  /** First index at or after `i` that is not a host character. */
  function HostEnd(s: string, i: nat): (k: nat)
    requires i <= |s|
    ensures i <= k <= |s|
    ensures forall j :: i <= j < k ==> IsHostChar(s[j])
    ensures k < |s| ==> !IsHostChar(s[k])
    decreases |s| - i
  {
    if i < |s| && IsHostChar(s[i]) then HostEnd(s, i + 1) else i
  }

  /** First index at or after `i` that is not a digit. */
  function DigitsEnd(s: string, i: nat): (k: nat)
    requires i <= |s|
    ensures i <= k <= |s|
    ensures forall j :: i <= j < k ==> IsDigit(s[j])
    ensures k < |s| ==> !IsDigit(s[k])
    decreases |s| - i
  {
    if i < |s| && IsDigit(s[i]) then DigitsEnd(s, i + 1) else i
  }

  /** A run of host characters ending at `k` is what `HostEnd` finds. */
  lemma {:induction false} HostEndUnique(s: string, i: nat, k: nat)
    requires i <= k <= |s|
    requires forall j :: i <= j < k ==> IsHostChar(s[j])
    requires k < |s| ==> !IsHostChar(s[k])
    ensures HostEnd(s, i) == k
    decreases k - i
  {
    if i < k {
      HostEndUnique(s, i + 1, k);
    }
  }

  /** A run of digits ending at `k` is what `DigitsEnd` finds. */
  lemma {:induction false} DigitsEndUnique(s: string, i: nat, k: nat)
    requires i <= k <= |s|
    requires forall j :: i <= j < k ==> IsDigit(s[j])
    requires k < |s| ==> !IsDigit(s[k])
    ensures DigitsEnd(s, i) == k
    decreases k - i
  {
    if i < k {
      DigitsEndUnique(s, i + 1, k);
    }
  }

  /** Groups 2, 4 and 5 over the text after the optional scheme. The host run is
      greedy and cannot give characters back, since the next character must be
      ':', '/' or the end; the same holds for the digit run. */
  function MatchRest(t: string): Option<Groups> {
    var h := HostEnd(t, 0);
    if h == 0 then None
    else if h == |t| then Some(Groups(None, t, None, None))
    else if t[h] == '/' then Some(Groups(None, t[..h], None, Some(t[h..])))
    else
      var e := DigitsEnd(t, h + 1);
      if e == h + 1 then None
      else if e == |t| then Some(Groups(None, t[..h], Some(t[h + 1..]), None))
      else if t[e] == '/' then Some(Groups(None, t[..h], Some(t[h + 1..e]), Some(t[e..])))
      else None
  }

  /** The host run found at the start of a text is a host. */
  lemma HostPrefix(t: string)
    ensures IsHost(t[..HostEnd(t, 0)]) <==> HostEnd(t, 0) > 0
  {
    var h := HostEnd(t, 0);
    assert forall i :: 0 <= i < h ==> t[..h][i] == t[i];
  }

  /** The digit run found after the host is all digits. */
  lemma PortDigits(t: string, h: nat)
    requires h < |t|
    ensures AllDigits(t[h + 1..DigitsEnd(t, h + 1)])
  {
    var port := t[h + 1..DigitsEnd(t, h + 1)];
    assert forall i :: 0 <= i < |port| ==> port[i] == t[h + 1 + i];
  }

  /** Host, ':' and port put back together are the text up to the port's end. */
  lemma PortSplit(t: string, h: nat, e: nat)
    requires h < e <= |t| && t[h] == ':'
    ensures t[..h] + ":" + t[h + 1..e] == t[..e]
  {
    assert t[h..e] == [':'] + t[h + 1..e];
    assert t[..e] == t[..h] + t[h..e];
  }

  /** The host-and-path shape of a match. */
  lemma PathShape(t: string, h: nat)
    requires 0 < h < |t| && IsHost(t[..h]) && t[h] == '/'
    ensures var g := Groups(None, t[..h], None, Some(t[h..]));
      RenderRest(g) == t && RestOk(g)
  {
    assert t == t[..h] + t[h..];
  }

  /** The host-and-port shape of a match, with or without a path after the port. */
  lemma PortShape(t: string, h: nat, e: nat)
    requires 0 < h && h + 1 < e <= |t| && IsHost(t[..h]) && t[h] == ':'
    requires AllDigits(t[h + 1..e])
    requires e < |t| ==> t[e] == '/'
    ensures var g := Groups(None, t[..h], Some(t[h + 1..e]), if e == |t| then None else Some(t[e..]));
      RenderRest(g) == t && RestOk(g)
  {
    PortSplit(t, h, e);
    if e < |t| {
      assert t == t[..e] + t[e..];
    } else {
      assert t[..e] == t;
    }
  }

  /** What `MatchRest` finds is a well-formed, scheme-less split of its input. */
  lemma MatchRestSound(t: string)
    requires MatchRest(t).Some?
    ensures MatchRest(t).value.scheme.None?
    ensures RenderRest(MatchRest(t).value) == t
    ensures RestOk(MatchRest(t).value)
  {
    var h := HostEnd(t, 0);
    HostPrefix(t);
    if h == |t| {
      assert t[..h] == t;
    } else if t[h] == '/' {
      PathShape(t, h);
    } else {
      var e := DigitsEnd(t, h + 1);
      PortDigits(t, h);
      PortShape(t, h, e);
    }
  }

  /** True iff `s` starts with `p`, letters compared without regard to case. */
  predicate HasPrefixIgnoringCase(s: string, p: string) {
    |p| <= |s| && Downcase(s[..|p|]) == Downcase(p)
  }

  /** The groups of a scheme-less match with group 1 set to `sc`. */
  lemma WithScheme(sc: string, g: Groups)
    requires g.scheme.None?
    ensures Render(g.(scheme := Some(sc))) == sc + Render(g)
    ensures RestOk(g.(scheme := Some(sc))) == RestOk(g)
  {
  }

  /** The match that takes the scheme group. */
  function MatchWithScheme(name: string, s: string): (r: Option<Groups>)
    ensures r.Some? ==> Render(r.value) == s && WellFormed(name, r.value) && r.value.scheme.Some?
  {
    var n := |name + "://"|;
    if HasPrefixIgnoringCase(s, name + "://") && MatchRest(s[n..]).Some? then
      var g := MatchRest(s[n..]).value;
      MatchRestSound(s[n..]);
      WithScheme(s[..n], g);
      assert s == s[..n] + s[n..];
      Some(g.(scheme := Some(s[..n])))
    else None
  }

  /** The match that leaves the scheme group out. */
  function MatchWithoutScheme(name: string, s: string): (r: Option<Groups>)
    ensures r.Some? ==> Render(r.value) == s && WellFormed(name, r.value) && r.value.scheme.None?
  {
    var m := MatchRest(s);
    if m.Some? then MatchRestSound(s); m else None
  }

  /** The pattern match. The optional scheme group is tried first, then the match without it. */
  function ParseGroups(name: string, s: string): (r: Option<Groups>)
    requires '\n' !in s
    ensures r.Some? ==> Render(r.value) == s && WellFormed(name, r.value)
  {
    if MatchWithScheme(name, s).Some? then MatchWithScheme(name, s) else MatchWithoutScheme(name, s)
  }

  /** The text after the host group: ':' and the port, then the path. */
  function AfterHost(g: Groups): string {
    (if g.port.Some? then ":" + g.port.value else "") + (if g.path.Some? then g.path.value else "")
  }

  /** The text after the port group: the path. */
  function AfterPort(g: Groups): string {
    if g.path.Some? then g.path.value else ""
  }

  /** A host run stops at the first ':' or '/'. */
  lemma HostEndAt(h: string, r: string)
    requires IsHost(h)
    requires r == [] || r[0] == ':' || r[0] == '/'
    ensures HostEnd(h + r, 0) == |h|
  {
    var t := h + r;
    assert forall j :: 0 <= j < |h| ==> t[j] == h[j];
    if r != [] {
      assert t[|h|] == r[0];
    }
    HostEndUnique(t, 0, |h|);
  }

  /** A digit run stops at the first '/'. */
  lemma DigitsEndAt(a: string, p: string, r: string)
    requires AllDigits(p)
    requires r == [] || r[0] == '/'
    ensures DigitsEnd(a + p + r, |a|) == |a| + |p|
  {
    var t := a + p + r;
    assert forall j :: |a| <= j < |a| + |p| ==> t[j] == p[j - |a|];
    if r != [] {
      assert t[|a| + |p|] == r[0];
    }
    DigitsEndUnique(t, |a|, |a| + |p|);
  }

  /** The host run ends exactly where the host group ends. */
  lemma HostEndOfRendered(g: Groups)
    requires RestOk(g)
    ensures RenderRest(g) == g.host + AfterHost(g)
    ensures HostEnd(RenderRest(g), 0) == |g.host|
    ensures RenderRest(g)[..|g.host|] == g.host
  {
    var r := AfterHost(g);
    assert RenderRest(g) == g.host + r;
    if r != [] {
      assert r[0] == (if g.port.Some? then ':' else g.path.value[0]);
    }
    HostEndAt(g.host, r);
    assert (g.host + r)[..|g.host|] == g.host;
  }

  /** The digit run after ':' ends exactly where the port group ends. */
  lemma DigitsEndOfRendered(g: Groups)
    requires RestOk(g) && g.port.Some?
    ensures var t := RenderRest(g);
      && t[|g.host|] == ':'
      && DigitsEnd(t, |g.host| + 1) == |g.host| + 1 + |g.port.value|
      && t[|g.host| + 1..|g.host| + 1 + |g.port.value|] == g.port.value
      && t[|g.host| + 1 + |g.port.value|..] == AfterPort(g)
  {
    var a := g.host + ":";
    var p := g.port.value;
    var r := AfterPort(g);
    assert RenderRest(g) == a + p + r;
    DigitsEndAt(a, p, r);
    assert (a + p + r)[|a|..|a| + |p|] == p;
    assert (a + p + r)[|a| + |p|..] == r;
  }

  /** Everything the pattern's groups say about a host-first text. */
  lemma MatchRestRendered(g: Groups)
    requires RestOk(g)
    ensures MatchRest(RenderRest(g)) == Some(g.(scheme := None))
  {
    var t := RenderRest(g);
    var h := |g.host|;
    HostEndOfRendered(g);
    if g.port.Some? {
      DigitsEndOfRendered(g);
      var e := h + 1 + |g.port.value|;
      if g.path.Some? {
        assert t[e] == '/';
      } else {
        assert t[h + 1..] == g.port.value;
      }
    } else if g.path.Some? {
      assert t[h..] == g.path.value;
    } else {
      assert t == g.host;
    }
  }

  /** Lower-casing only touches letters, so it keeps ':' and '/' apart from everything else. */
  lemma LowerSeparator(c: char, d: char)
    requires LowerChar(c) == LowerChar(d)
    ensures c == ':' <==> d == ':'
    ensures c == '/' <==> d == '/'
  {
  }

  /** Characters at the same place agree once lower-cased when the prefixes do. */
  lemma PrefixCharsIgnoringCase(t: string, p: string, i: nat)
    requires HasPrefixIgnoringCase(t, p) && i < |p|
    ensures LowerChar(t[i]) == LowerChar(p[i])
  {
    assert Downcase(t[..|p|])[i] == LowerChar(t[..|p|][i]);
  }

  /** A case-blind "<name>://" prefix puts ':' and '/' right after the name. */
  lemma SchemeSeparatorAt(t: string, name: string)
    requires HasPrefixIgnoringCase(t, name + "://")
    ensures t[|name|] == ':' && t[|name| + 1] == '/'
  {
    var sch := name + "://";
    var n := |name|;
    PrefixCharsIgnoringCase(t, sch, n);
    PrefixCharsIgnoringCase(t, sch, n + 1);
    LowerSeparator(t[n], sch[n]);
    LowerSeparator(t[n + 1], sch[n + 1]);
  }

  /** Where a case-blind "<name>://" prefix has a host character, the text has one too. */
  lemma SchemeNameCharAt(t: string, name: string, i: nat)
    requires HasPrefixIgnoringCase(t, name + "://")
    requires i < |name| && IsHostChar(name[i])
    ensures IsHostChar(t[i])
  {
    var sch := name + "://";
    PrefixCharsIgnoringCase(t, sch, i);
    LowerSeparator(t[i], sch[i]);
  }

  /** A text that starts with its host has no scheme prefix: the host holds no ':', and
      the port after a ':' cannot start with '/'. */
  lemma HostFirstHasNoScheme(name: string, g: Groups)
    requires |name| > 0 && forall i :: 0 <= i < |name| ==> IsHostChar(name[i])
    requires RestOk(g)
    ensures !HasPrefixIgnoringCase(RenderRest(g), name + "://")
  {
    var t := RenderRest(g);
    var n := |name|;
    var h := |g.host|;
    if HasPrefixIgnoringCase(t, name + "://") {
      SchemeSeparatorAt(t, name);
      HostEndOfRendered(g);
      if h < n {
        SchemeNameCharAt(t, name, h);
      } else if h == n && g.port.Some? {
        DigitsEndOfRendered(g);
      }
    }
  }

  lemma ParseRenderWithScheme(name: string, g: Groups)
    requires WellFormed(name, g) && g.scheme.Some?
    ensures MatchWithScheme(name, Render(g)) == Some(g)
  {
    var s := Render(g);
    var sc := g.scheme.value;
    var n := |name + "://"|;
    MatchRestRendered(g);
    assert |sc| == n by {
      assert |Downcase(sc)| == |Downcase(name + "://")|;
    }
    assert s[..n] == sc && s[n..] == RenderRest(g);
    assert HasPrefixIgnoringCase(s, name + "://");
  }

  lemma ParseRenderWithoutScheme(name: string, g: Groups)
    requires |name| > 0 && forall i :: 0 <= i < |name| ==> IsHostChar(name[i])
    requires WellFormed(name, g) && g.scheme.None?
    ensures MatchWithScheme(name, Render(g)).None?
    ensures MatchWithoutScheme(name, Render(g)) == Some(g)
  {
    MatchRestRendered(g);
    HostFirstHasNoScheme(name, g);
    assert Render(g) == RenderRest(g);
  }

  /** Parsing recovers every well-formed set of groups from the text they make up. */
  lemma ParseRender(name: string, g: Groups)
    requires |name| > 0 && forall i :: 0 <= i < |name| ==> IsHostChar(name[i])
    requires WellFormed(name, g)
    requires '\n' !in Render(g)
    ensures ParseGroups(name, Render(g)) == Some(g)
  {
    if g.scheme.Some? {
      ParseRenderWithScheme(name, g);
    } else {
      ParseRenderWithoutScheme(name, g);
    }
  }

  /** The port a session opens when the location names none. */
  function DefaultPort(kind: SourceKind): nat {
    match kind
    case Sftp => 22
    case _ => 21
  }

  function SchemeName(kind: SourceKind): string {
    match kind
    case Ftp => "ftp"
    case Sftp => "sftp"
    case Https => "https"
    case LocalFolder | NoSource => ""
  }

  /** Where an FTP or SFTP session connects: `$2`, `($4 || default).to_i` and `$5 || ''`. */
  datatype Endpoint = Endpoint(host: string, port: nat, remotePath: string)

  function EndpointOf(kind: SourceKind, g: Groups): Endpoint
    requires g.port.Some? ==> AllDigits(g.port.value)
  {
    Endpoint(g.host,
             if g.port.Some? then DigitsValue(g.port.value) else DefaultPort(kind),
             if g.path.Some? then g.path.value else "")
  }

  /** The credentials value that marks unfilled project settings. */
  const Placeholder: string := "REDACTED"

  /** The configuration `connect` reads. `isDirectory` stands for the local
      `File.exist?(p) && File.directory?(p)` test. `sharedRoot` says that the
      target is the local source folder's own string object, as the default
      `$to_local = $from_local` leaves it when `--from-local` is given a blank
      argument and `--to-local` is absent or blank too; `toLocal` is then that
      folder as well. */
  datatype Settings = Settings(
    kind: SourceKind,
    from: string,
    toLocal: string,
    sharedRoot: bool,
    username: string,
    password: string,
    isDirectory: string -> bool)

  /** The source transport chosen by `connect`. */
  datatype Remote = FileTransfer(endpoint: Endpoint) | WebBase(url: string) | NoRemote

  /** What `connect` leaves behind: the transport and both roots with one trailing '/' removed. */
  datatype Connection = Connection(remote: Remote, sourceRoot: string, targetRoot: string)

  /** A local source and a target that are one string object: `chomp!('/')` on
      the source root and then on the target root strips that one string twice. */
  predicate SharesRoot(st: Settings) {
    st.kind == LocalFolder && st.sharedRoot
  }

  /** The folder the target checks and the target root read. */
  function TargetFolder(st: Settings): string {
    if SharesRoot(st) then st.from else st.toLocal
  }

  /** A root after the two `chomp!('/')` calls of `connect`: one of them reaches
      it, or both when the roots are one string. */
  function ChompedRoot(s: string, twice: bool): string {
    var once := Paths.ChompSlash(s);
    if twice then Paths.ChompSlash(once) else once
  }

  /** `connect`: an `Err` is a `$logger.error`, which ends the run. */
  function Connect(st: Settings): (r: Result<Connection, string>)
    requires '\n' !in st.from
    ensures r.Success? ==> !IsBlank(TargetFolder(st)) && st.isDirectory(TargetFolder(st))
    ensures r.Success? ==> r.value.targetRoot == ChompedRoot(TargetFolder(st), SharesRoot(st))
    ensures r.Success? && st.kind == LocalFolder ==>
      && !IsBlank(st.from) && st.isDirectory(st.from) && r.value.remote == NoRemote
      && r.value.sourceRoot == ChompedRoot(st.from, SharesRoot(st))
    ensures r.Success? && (st.kind == Ftp || st.kind == Sftp) ==>
      && st.username != Placeholder && st.password != Placeholder
      && r.value.remote.FileTransfer?
      && (exists g :: WellFormed(SchemeName(st.kind), g) && Render(g) == st.from
                        && r.value.remote.endpoint == EndpointOf(st.kind, g))
      && r.value.sourceRoot == Paths.ChompSlash(r.value.remote.endpoint.remotePath)
    ensures r.Success? && st.kind == Https ==> r.value.sourceRoot == "" && r.value.remote == WebBase(st.from)
    ensures st.kind == NoSource ==> r.Failure?
  {
    var source: Result<(Remote, string), string> :=
      match st.kind
      case Ftp | Sftp =>
        (match ParseGroups(SchemeName(st.kind), st.from)
         case None => Failure("Not a valid location")
         case Some(g) =>
           if st.username == Placeholder || st.password == Placeholder then Failure("Specify the credentials in the project user settings")
           else
             var ep := EndpointOf(st.kind, g);
             Success((FileTransfer(ep), ep.remotePath)))
      case Https =>
        if ParseGroups(SchemeName(st.kind), st.from).None? then Failure("Not a valid HTTPS location")
        else Success((WebBase(st.from), ""))
      case LocalFolder =>
        if IsBlank(st.from) then Failure("Source path empty or not given.")
        else if !st.isDirectory(st.from) then Failure("Source path not found.")
        else Success((NoRemote, st.from))
      case NoSource => Failure("No source found!");
    match source
    case Failure(e) => Failure(e)
    case Success(s) =>
      var target := TargetFolder(st);
      if IsBlank(target) then Failure("Target path empty or not given.")
      else if !st.isDirectory(target) then Failure("Target path not found.")
      else Success(Connection(s.0, ChompedRoot(s.1, SharesRoot(st)), ChompedRoot(target, SharesRoot(st))))
  }

  /** Once the location parses, the credentials are filled in and the target folder
      exists, `connect` opens the endpoint the groups name. */
  lemma ConnectParsed(st: Settings, g: Groups)
    requires st.kind == Ftp || st.kind == Sftp
    requires '\n' !in st.from
    requires ParseGroups(SchemeName(st.kind), st.from) == Some(g)
    requires st.username != Placeholder && st.password != Placeholder
    requires !IsBlank(st.toLocal) && st.isDirectory(st.toLocal)
    ensures g.port.Some? ==> AllDigits(g.port.value)
    ensures Connect(st) == Success(Connection(FileTransfer(EndpointOf(st.kind, g)),
                                              Paths.ChompSlash(EndpointOf(st.kind, g).remotePath),
                                              Paths.ChompSlash(st.toLocal)))
  {
  }

  /** The groups of `scheme://host[:port][path]`. */
  function GroupsOf(name: string, host: string, port: Option<nat>, path: string): Groups {
    Groups(Some(name + "://"), host,
           if port.Some? then Some(NatToDigits(port.value)) else None,
           if path == "" then None else Some(path))
  }

  /** The groups of a location written out in full are well formed and make up its text. */
  lemma GroupsOfWellFormed(name: string, host: string, port: Option<nat>, path: string)
    requires IsHost(host)
    requires path == "" || path[0] == '/'
    ensures WellFormed(name, GroupsOf(name, host, port, path))
    ensures Render(GroupsOf(name, host, port, path))
            == name + "://" + host + (if port.Some? then ":" + NatToDigits(port.value) else "") + path
  {
  }

  /** An FTP or SFTP location written out in full connects to the host, port and
      folder it names; without a port the protocol's default is used. */
  lemma ConnectRoundTrip(st: Settings, host: string, port: Option<nat>, path: string)
    requires st.kind == Ftp || st.kind == Sftp
    requires IsHost(host)
    requires path == "" || path[0] == '/'
    requires st.from == SchemeName(st.kind) + "://" + host
                        + (if port.Some? then ":" + NatToDigits(port.value) else "") + path
    requires '\n' !in st.from
    requires st.username != Placeholder && st.password != Placeholder
    requires !IsBlank(st.toLocal) && st.isDirectory(st.toLocal)
    ensures Connect(st).Success?
    ensures Connect(st).value.remote
            == FileTransfer(Endpoint(host, if port.Some? then port.value else DefaultPort(st.kind), path))
    ensures Connect(st).value.sourceRoot == Paths.ChompSlash(path)
  {
    var name := SchemeName(st.kind);
    var g := GroupsOf(name, host, port, path);
    GroupsOfWellFormed(name, host, port, path);
    ParseRender(name, g);
    ConnectParsed(st, g);
    if port.Some? {
      DigitsRoundTrip(port.value);
    }
  }

  /** With the default target, a local source root and the target root are one
      string: both end up the same, and a folder written with a doubled trailing
      '/' loses both of them. */
  lemma SharedRootChompedTwice(st: Settings)
    requires '\n' !in st.from
    requires SharesRoot(st) && Connect(st).Success?
    ensures Connect(st).value.sourceRoot == Connect(st).value.targetRoot
    ensures HasSuffix(st.from, "//") ==> Connect(st).value.targetRoot + "//" == st.from
  {
  }
}

=== FILE: paths.dfy ===
/** Path handling of the sync script: placeholder substitution, Ruby's
    `File.dirname`/`basename`/`extname`, and the `.info` companion. */
module Paths {

  import opened Wrappers
  import opened Strings

  /** The placeholder every data-source template uses for its root folder. */
  const DataFolder: string := "{data_folder}"

  /** `datasource.gsub('{data_folder}', root)`. */
  function Substitute(template: string, root: string): string {
    ReplaceAll(template, DataFolder, root)
  }

  /** A template of the usual shape `{data_folder}<rest>` lands under the given root. */
  lemma SubstituteRooted(rest: string, root: string)
    requires !Occurs(rest, DataFolder)
    ensures Substitute(DataFolder + rest, root) == root + rest
  {
    assert DataFolder[1..] == "data_folder}";
    assert Unbordered(DataFolder);
    assert !Occurs([], DataFolder);
    ReplaceAllLeftmost([], DataFolder, root, rest);
    assert [] + DataFolder + rest == DataFolder + rest;
  }

  /** One trailing '/' removed, as `chomp!('/')` does to both roots. */
  function ChompSlash(s: string): (r: string)
    ensures HasSuffix(s, "/") ==> r + "/" == s
    ensures !HasSuffix(s, "/") ==> r == s
  {
    ChompSuffix(s, "/")
  }

  /** Where the file part of `p` starts: just after the last '/', or 0. */
  function BaseStart(p: string): (b: nat)
    ensures b <= |p|
    ensures forall j :: b <= j < |p| ==> p[j] != '/'
  {
    match LastIndexIn(p, '/', 0, |p|)
    case None => 0
    case Some(i) => i + 1
  }

  /** Directory part: everything before the last '/', or "." when there is none.
      A file directly under the root gets "" (Ruby gives "/"), and repeated
      slashes are not collapsed. */
  function Dirname(p: string): string {
    match LastIndexIn(p, '/', 0, |p|)
    case None => "."
    case Some(i) => p[..i]
  }

  /** File part: everything after the last '/'. */
  function Basename(p: string): (r: string)
    ensures '/' !in r
  {
    p[BaseStart(p)..]
  }

  /** The path a transport touches for `name` while its cursor is at `dir`. */
  function Resolve(dir: string, name: string): string {
    dir + "/" + name
  }

  /** Probing the basename from the file's own directory reaches the file itself. */
  lemma ResolveSplit(p: string)
    requires '/' in p
    ensures Resolve(Dirname(p), Basename(p)) == p
  {
    var i := LastIndexIn(p, '/', 0, |p|).value;
    assert p == p[..i] + "/" + p[i + 1..];
  }

  /** A cursor from which the basename probe reaches `p` is the directory of `p`. */
  lemma ResolveOnlyFromDirname(p: string, c: string)
    requires Resolve(c, Basename(p)) == p
    ensures c == Dirname(p)
  {
    var n := |c|;
    assert p[n] == '/';
    assert forall j :: n < j < |p| ==> p[j] == Basename(p)[j - n - 1];
    LastIndexInSkip(p, '/', 0, n + 1, |p|);
    assert p[..n] == c;
  }

  /** The cursor rule of the remote probes: probing the basename of `p` reaches `p`
      exactly when the cursor is the directory of `p`. */
  lemma ProbeReachesFile(p: string, c: string)
    requires '/' in p
    ensures Resolve(c, Basename(p)) == p <==> c == Dirname(p)
  {
    if Resolve(c, Basename(p)) == p {
      ResolveOnlyFromDirname(p, c);
    }
    if c == Dirname(p) {
      ResolveSplit(p);
    }
  }

  /** `p` has a '/' and the part before its last '/' does not itself end in '/',
      so the separator before the file name is single. */
  predicate HasDir(p: string) {
    '/' in p && !HasSuffix(Dirname(p), "/")
  }

  /** Appending a slash-free suffix keeps the directory and extends the file name. */
  lemma AppendToBasename(p: string, x: string)
    requires '/' !in x
    ensures BaseStart(p + x) == BaseStart(p)
    ensures Dirname(p + x) == Dirname(p)
    ensures Basename(p + x) == Basename(p) + x
    ensures '/' in p ==> '/' in p + x
  {
    var px := p + x;
    LastIndexInSkip(px, '/', 0, |p|, |px|);
    LastIndexInAppend(p, x, '/', 0, |p|);
    match LastIndexIn(p, '/', 0, |p|)
    case None =>
    case Some(i) =>
      assert px[..i] == p[..i];
      assert px[i] == '/';
  }

  /** The first index at or after `i` that is not a '.', or `|p|`. */
  function SkipDots(p: string, i: nat): (k: nat)
    requires i <= |p|
    ensures i <= k <= |p|
    ensures forall j :: i <= j < k ==> p[j] == '.'
    ensures k < |p| ==> p[k] != '.'
    decreases |p| - i
  {
    if i < |p| && p[i] == '.' then SkipDots(p, i + 1) else i
  }

  /** The dot run is decided before its first non-dot, so whatever follows it is irrelevant. */
  lemma {:induction false} SkipDotsPrefix(p: string, q: string, i: nat)
    requires i <= |p| && SkipDots(p, i) < |p|
    requires |p| <= |q| && q[..|p|] == p
    ensures SkipDots(q, i) == SkipDots(p, i)
    decreases |p| - i
  {
    assert q[i] == p[i];
    if p[i] == '.' {
      SkipDotsPrefix(p, q, i + 1);
    }
  }

  /** Where the extension starts: the last '.' of the basename once its leading dots
      are skipped, or `|p|` when there is none ("a.b.csv" gives ".csv", ".profile"
      gives nothing, and a trailing '.' gives "."). */
  function ExtStart(p: string): (e: nat)
    ensures BaseStart(p) <= e <= |p|
    ensures e < |p| ==> p[e] == '.' && SkipDots(p, BaseStart(p)) < e
  {
    var k := SkipDots(p, BaseStart(p));
    match LastIndexIn(p, '.', k, |p|)
    case None => |p|
    case Some(j) => j
  }

  function Extname(p: string): (e: string)
    ensures e == "" || e[0] == '.'
    ensures '/' !in e
  {
    p[ExtStart(p)..]
  }

  /** The descriptor without its extension. */
  function Stem(p: string): string {
    p[..ExtStart(p)]
  }

  /** True iff the basename has some character other than '.', which is what gives
      a file name a stem. */
  predicate HasStem(p: string) {
    SkipDots(p, BaseStart(p)) < |p|
  }

  /** The `.info` companion: the extension replaced by `.info`, which
      `datasource.chomp(File.extname(datasource)) + '.info'` computes. */
  function InfoCompanion(d: string): (c: string)
    ensures HasSuffix(c, ".info")
  {
    Chomp(d, Extname(d)) + ".info"
  }

  /** Without a line break, the chomp removes exactly the extension. */
  lemma StemOf(d: string)
    requires '\n' !in d
    ensures InfoCompanion(d) == Stem(d) + ".info"
  {
    if Extname(d) == "" {
      assert d[..|d|] == d;
    } else {
      assert HasSuffix(d, Extname(d));
    }
  }

  /** Dropping the extension keeps the directory, and the stem still has a
      non-dot character. */
  lemma StemKeepsName(d: string)
    requires HasStem(d)
    ensures Dirname(Stem(d)) == Dirname(d)
    ensures HasStem(Stem(d))
  {
    var q := Stem(d);
    var e := Extname(d);
    assert d == q + e;
    AppendToBasename(q, e);
    if e != "" {
      SkipDotsPrefix(q, d, BaseStart(d));
    }
  }

  /** Appending ".info" to a name with a stem gives extension ".info". */
  lemma ExtnameOfInfo(q: string)
    requires HasStem(q)
    ensures ExtStart(q + ".info") == |q|
    ensures Extname(q + ".info") == ".info"
  {
    var c := q + ".info";
    AppendToBasename(q, ".info");
    var b := BaseStart(q);
    SkipDotsPrefix(q, c, b);
    var k := SkipDots(q, b);
    LastIndexInSkip(c, '.', k, |q| + 1, |c|);
  }

  /** The companion, spelled out: the stem of a line-break-free descriptor, which keeps its
      directory and its stem, followed by ".info". */
  lemma CompanionShape(d: string)
    requires '\n' !in d
    requires HasStem(d)
    ensures InfoCompanion(d) == Stem(d) + ".info"
    ensures Dirname(Stem(d)) == Dirname(d)
    ensures HasStem(Stem(d))
    ensures '\n' !in Stem(d)
  {
    StemOf(d);
    StemKeepsName(d);
    assert forall i :: 0 <= i < |Stem(d)| ==> Stem(d)[i] == d[i];
  }

  /** The companion sits in the same directory and has extension `.info`. */
  lemma InfoCompanionIsInfo(d: string)
    requires '\n' !in d
    requires HasStem(d)
    ensures Dirname(InfoCompanion(d)) == Dirname(d)
    ensures Extname(InfoCompanion(d)) == ".info"
  {
    CompanionShape(d);
    AppendToBasename(Stem(d), ".info");
    ExtnameOfInfo(Stem(d));
  }

  /** The companion is its own companion, so a descriptor that already names an
      `.info` file is processed twice under the same name. */
  lemma InfoCompanionIdempotent(d: string)
    requires '\n' !in d
    requires HasStem(d)
    ensures InfoCompanion(InfoCompanion(d)) == InfoCompanion(d)
  {
    CompanionShape(d);
    var q := Stem(d);
    ExtnameOfInfo(q);
    var c := q + ".info";
    assert Chomp(c, ".info") == ChompSuffix(c, ".info");
    assert HasSuffix(c, ".info");
    assert ChompSuffix(c, ".info") == q;
  }
}

=== FILE: sqltext.dfy ===
/** SQL text the build scripts put together: PostgreSQL string constants for
    comments, the `ANALYZE`/`VACUUM` command, and the `WITH` clause of
    `CREATE DATABASE`. */
module SqlText {

  import opened Wrappers
  import opened Strings
  import Versioning

  // ---------------------------------------------------------------------------
  // String constants

  /** `s.gsub('\'', '\'\'')`: every single quote doubled. */
  function EscapeQuotes(s: string): string {
    ReplaceAll(s, "'", "''")
  }

  /** Reads a PostgreSQL string constant body up to its closing quote, where two
      quotes in a row stand for one quote character (section 4.1.2.1 of the
      PostgreSQL manual). Gives the value read and the text after the closing
      quote, or None when the constant never ends. */
  function ReadQuoted(t: string): (r: Option<(string, string)>)
    ensures r.Some? ==> |r.value.1| < |t|
    decreases |t|
  {
    if |t| == 0 then None
    else if t[0] == '\'' then
      if |t| > 1 && t[1] == '\'' then
        match ReadQuoted(t[2..])
        case None => None
        case Some((v, rest)) => Some(("'" + v, rest))
      else Some(("", t[1..]))
    else
      match ReadQuoted(t[1..])
      case None => None
      case Some((v, rest)) => Some(([t[0]] + v, rest))
  }

  /** The quoted constant the scripts write for a comment. */
  function Literal(s: string): string {
    "'" + EscapeQuotes(s) + "'"
  }

  /** Escaping is sound: the constant body of an escaped text, followed by the
      closing quote, reads back as exactly that text and ends exactly at the
      closing quote, provided what follows does not itself start with a quote
      (in the scripts it is the end of the statement, `;` or a line break). */
  lemma {:induction false} EscapedBodyReadsBack(s: string, rest: string)
    requires |rest| == 0 || rest[0] != '\''
    ensures ReadQuoted(EscapeQuotes(s) + "'" + rest) == Some((s, rest))
    decreases |s|
  {
    if |s| == 0 {
      assert EscapeQuotes(s) + "'" + rest == "'" + rest;
    } else {
      var t := EscapeQuotes(s) + "'" + rest;
      EscapedBodyReadsBack(s[1..], rest);
      if s[0] == '\'' {
        assert EscapeQuotes(s) == "''" + EscapeQuotes(s[1..]);
        assert t[2..] == EscapeQuotes(s[1..]) + "'" + rest;
        assert s == "'" + s[1..];
      } else {
        assert !HasPrefix(s, "'");
        assert EscapeQuotes(s) == [s[0]] + EscapeQuotes(s[1..]);
        assert t[1..] == EscapeQuotes(s[1..]) + "'" + rest;
        assert s == [s[0]] + s[1..];
      }
    }
  }

  /** A comment statement cannot be broken out of: the constant that starts
      after `IS ` is the comment, and the text after it is the statement's own. */
  lemma LiteralReadsBack(s: string, rest: string)
    requires |rest| == 0 || rest[0] != '\''
    ensures var t := Literal(s) + rest;
      t[0] == '\'' && ReadQuoted(t[1..]) == Some((s, rest))
  {
    var t := Literal(s) + rest;
    assert t[1..] == EscapeQuotes(s) + "'" + rest;
    EscapedBodyReadsBack(s, rest);
  }

  /** Number of single quotes in `s`. */
  function Quotes(s: string): nat {
    multiset(s)['\'']
  }

  /** Escaping adds exactly one character per quote and keeps everything else. */
  lemma {:induction false} EscapeLength(s: string)
    ensures |EscapeQuotes(s)| == |s| + Quotes(s)
    decreases |s|
  {
    if |s| > 0 {
      EscapeLength(s[1..]);
      assert s == [s[0]] + s[1..];
      assert multiset(s) == multiset([s[0]]) + multiset(s[1..]);
    }
  }

  /** Quotes come in adjacent pairs only. */
  predicate QuotesPaired(t: string)
    decreases |t|
  {
    if |t| == 0 then true
    else if t[0] == '\'' then |t| > 1 && t[1] == '\'' && QuotesPaired(t[2..])
    else QuotesPaired(t[1..])
  }

  /** An escaped text holds no unpaired single quote. */
  lemma {:induction false} EscapedQuotesPaired(s: string)
    ensures QuotesPaired(EscapeQuotes(s))
    decreases |s|
  {
    if |s| > 0 {
      EscapedQuotesPaired(s[1..]);
      var e := EscapeQuotes(s);
      if s[0] == '\'' {
        assert e == "''" + EscapeQuotes(s[1..]);
        assert e[2..] == EscapeQuotes(s[1..]);
      } else {
        assert !HasPrefix(s, "'");
        assert e == [s[0]] + EscapeQuotes(s[1..]);
        assert e[1..] == EscapeQuotes(s[1..]);
      }
    }
  }

  // ---------------------------------------------------------------------------
  // ANALYZE and VACUUM

  /** The arguments `analyze_vacuum_database` tells apart; any other value is
      `OtherArg`. */
  datatype MaintenanceArg = Analyze | Analyse | Vacuum | Full | OtherArg

  predicate AsksAnalyze(args: seq<MaintenanceArg>) {
    Analyze in args || Analyse in args
  }

  const MaintenanceError := "You need to specify at least :vacuum or :analyze as parameters to analyze_vacuum_database()"

  /** The `VACUUM` command with its options. */
  function VacuumSql(full: bool, analyze: bool): string {
    "VACUUM" + (if full then " FULL" else "") + " VERBOSE" + (if analyze then " ANALYZE" else "")
  }

  /** `analyze_vacuum_database(*actions)`: the SQL command it runs, or the error
      it raises. `databaseName` is the name set so far; without one the guard
      raises before the arguments are looked at. */
  function MaintenanceCommand(databaseName: Option<string>, args: seq<MaintenanceArg>): (r: Result<string, string>)
    ensures r.Success? <==> databaseName.Some? && (args == [Analyze] || args == [Analyse] || Vacuum in args)
    ensures databaseName.None? ==> r == Failure(Versioning.MissingNameError)
    ensures databaseName.Some? && r.Failure? ==> r.error == MaintenanceError
  {
    match Versioning.GetDatabaseName(databaseName)
    case Failure(e) => Failure(e)
    case Success(_) =>
      if args == [Analyze] || args == [Analyse] then Success("ANALYZE VERBOSE")
      else if Vacuum in args then Success(VacuumSql(Full in args, AsksAnalyze(args)))
      else Failure(MaintenanceError)
  }

  /** A lone analyze request gives a plain `ANALYZE VERBOSE`. */
  lemma AnalyzeAlone(db: string, args: seq<MaintenanceArg>)
    requires args == [Analyze] || args == [Analyse]
    ensures MaintenanceCommand(Some(db), args) == Success("ANALYZE VERBOSE")
    ensures !HasPrefix(MaintenanceCommand(Some(db), args).value, "VACUUM")
  {
    assert "ANALYZE VERBOSE"[0] == 'A';
  }

  /** `FULL` directly follows `VACUUM` exactly when asked for. */
  lemma VacuumFullIff(full: bool, analyze: bool)
    ensures HasPrefix(VacuumSql(full, analyze), "VACUUM ")
    ensures HasPrefix(VacuumSql(full, analyze), "VACUUM FULL ") <==> full
  {
    var cmd := VacuumSql(full, analyze);
    var tail := if analyze then " ANALYZE" else "";
    if full {
      assert cmd == "VACUUM FULL VERBOSE" + tail;
      assert cmd[..12] == "VACUUM FULL ";
      assert cmd[..7] == "VACUUM ";
    } else {
      assert cmd == "VACUUM VERBOSE" + tail;
      assert cmd[..7] == "VACUUM ";
      assert cmd[7] == 'V';
    }
  }

  /** The command ends in `ANALYZE` exactly when asked for, and in `VERBOSE`
      otherwise. */
  lemma VacuumAnalyzeIff(full: bool, analyze: bool)
    ensures HasSuffix(VacuumSql(full, analyze), " ANALYZE") <==> analyze
    ensures HasSuffix(VacuumSql(full, analyze), " VERBOSE") != analyze
  {
    var head := if full then "VACUUM FULL" else "VACUUM";
    var cmd := VacuumSql(full, analyze);
    if analyze {
      assert cmd == head + " VERBOSE ANALYZE";
      assert cmd[|cmd| - 8..] == " ANALYZE";
      assert cmd[|cmd| - 2] == 'Z';
    } else {
      assert cmd == head + " VERBOSE";
      assert cmd[|cmd| - 8..] == " VERBOSE";
      assert cmd[|cmd| - 2] == 'S';
    }
  }

  /** With `:vacuum` present the command is a verbose `VACUUM`, `FULL` exactly
      when asked for, and followed by `ANALYZE` exactly when asked for. */
  lemma VacuumOptions(db: string, args: seq<MaintenanceArg>)
    requires Vacuum in args
    ensures var cmd := MaintenanceCommand(Some(db), args).value;
      && HasPrefix(cmd, "VACUUM ")
      && (HasPrefix(cmd, "VACUUM FULL ") <==> Full in args)
      && (HasSuffix(cmd, " ANALYZE") <==> AsksAnalyze(args))
  {
    assert args != [Analyze] && args != [Analyse];
    VacuumFullIff(Full in args, AsksAnalyze(args));
    VacuumAnalyzeIff(Full in args, AsksAnalyze(args));
  }

  /** With `:vacuum` present, neither the order nor repetitions of the arguments
      matter. */
  lemma VacuumIgnoresOrder(db: Option<string>, a: seq<MaintenanceArg>, b: seq<MaintenanceArg>)
    requires Vacuum in a
    requires forall x :: x in a <==> x in b
    ensures MaintenanceCommand(db, a) == MaintenanceCommand(db, b)
  {
    assert Vacuum in b;
  }

  /** Without `:vacuum`, an analyze request only counts when it is the single
      argument: repeating it or adding `:full` raises. */
  lemma AnalyzeMustBeAlone(db: string)
    ensures MaintenanceCommand(Some(db), [Analyze, Analyze]) == Failure(MaintenanceError)
    ensures MaintenanceCommand(Some(db), [Analyze, Full]) == Failure(MaintenanceError)
    ensures MaintenanceCommand(Some(db), []) == Failure(MaintenanceError)
  {
  }

  // ---------------------------------------------------------------------------
  // CREATE DATABASE ... WITH

  /** One option of the `WITH` clause: a keyword and a value in quotes (double
      quotes for identifiers, single quotes for string constants). */
  datatype DbOption = DbOption(key: string, value: string, quote: char)

  function RenderOption(o: DbOption): string {
    o.key + " " + [o.quote] + o.value + [o.quote]
  }

  /** Options separated by single spaces, in order. */
  function RenderOptions(os: seq<DbOption>): string
    decreases |os|
  {
    if |os| == 0 then ""
    else if |os| == 1 then RenderOption(os[0])
    else RenderOptions(os[..|os| - 1]) + " " + RenderOption(os[|os| - 1])
  }

  /** The options `create_database` asks for: the template always, the
      tablespace when one is configured, and both locale categories when a
      collation is configured. */
  function WithOptions(template: string, tablespace: string, collation: string): (os: seq<DbOption>)
    ensures |os| > 0 && os[0] == DbOption("TEMPLATE", template, '"')
    ensures DbOption("TABLESPACE", tablespace, '"') in os <==> tablespace != ""
    ensures DbOption("LC_COLLATE", collation, '\'') in os <==> collation != ""
    ensures DbOption("LC_CTYPE", collation, '\'') in os <==> collation != ""
    ensures forall o :: o in os ==> o.key in ["TEMPLATE", "TABLESPACE", "LC_COLLATE", "LC_CTYPE"]
  {
    [DbOption("TEMPLATE", template, '"')]
    + (if tablespace == "" then [] else [DbOption("TABLESPACE", tablespace, '"')])
    + (if collation == "" then [] else [DbOption("LC_COLLATE", collation, '\''), DbOption("LC_CTYPE", collation, '\'')])
  }

  /** The clause as `create_database` builds it, by appending to a string. */
  function WithClause(template: string, tablespace: string, collation: string): string {
    var with := "TEMPLATE \"" + template + "\"";
    var with := if tablespace == "" then with else with + " TABLESPACE \"" + tablespace + "\"";
    if collation == "" then with else with + " LC_COLLATE '" + collation + "' LC_CTYPE '" + collation + "'"
  }

  /** Appending an option to the rendering of a non-empty list. */
  lemma RenderAppend(os: seq<DbOption>, o: DbOption)
    requires |os| > 0
    ensures RenderOptions(os + [o]) == RenderOptions(os) + " " + RenderOption(o)
  {
    var all := os + [o];
    assert |all| > 1;
    assert all[..|all| - 1] == os;
    assert all[|all| - 1] == o;
  }

  /** The literal pieces around the collation, split at word boundaries. */
  lemma CollationLiteralPieces()
    ensures " LC_COLLATE '" == " " + "LC_COLLATE" + " " + "'"
    ensures "' LC_CTYPE '" == "'" + " " + "LC_CTYPE" + " " + "'"
  {
  }

  /** Regrouping the pieces of two quoted options. */
  lemma RegroupTwoOptions(r: string, sp: string, k1: string, k2: string, q: string, v: string)
    ensures r + (sp + k1 + sp + q) + v + (q + sp + k2 + sp + q) + v + q
         == r + sp + (k1 + sp + q + v + q) + sp + (k2 + sp + q + v + q)
  {
  }

  /** Rendering with the collation options added. */
  lemma RenderWithCollation(os: seq<DbOption>, collation: string)
    requires |os| > 0
    ensures var c1 := DbOption("LC_COLLATE", collation, '\'');
      var c2 := DbOption("LC_CTYPE", collation, '\'');
      RenderOptions(os + [c1, c2])
        == RenderOptions(os) + " LC_COLLATE '" + collation + "' LC_CTYPE '" + collation + "'"
  {
    var c1 := DbOption("LC_COLLATE", collation, '\'');
    var c2 := DbOption("LC_CTYPE", collation, '\'');
    RenderAppend(os, c1);
    RenderAppend(os + [c1], c2);
    assert os + [c1] + [c2] == os + [c1, c2];
    CollationLiteralPieces();
    RegroupTwoOptions(RenderOptions(os), " ", "LC_COLLATE", "LC_CTYPE", "'", collation);
  }

  /** The template and tablespace part of the clause. */
  lemma RenderTemplateTablespace(template: string, tablespace: string)
    ensures var t := DbOption("TEMPLATE", template, '"');
      var s := DbOption("TABLESPACE", tablespace, '"');
      && RenderOptions([t]) == "TEMPLATE \"" + template + "\""
      && RenderOptions([t, s]) == "TEMPLATE \"" + template + "\"" + " TABLESPACE \"" + tablespace + "\""
  {
    var t := DbOption("TEMPLATE", template, '"');
    var s := DbOption("TABLESPACE", tablespace, '"');
    RenderAppend([t], s);
    assert [t] + [s] == [t, s];
  }

  /** The string the code builds is the rendering of exactly those options. */
  lemma WithClauseRendersOptions(template: string, tablespace: string, collation: string)
    ensures WithClause(template, tablespace, collation)
         == RenderOptions(WithOptions(template, tablespace, collation))
  {
    var t := DbOption("TEMPLATE", template, '"');
    var s := DbOption("TABLESPACE", tablespace, '"');
    var first := if tablespace == "" then [t] else [t, s];
    RenderTemplateTablespace(template, tablespace);
    var with := if tablespace == "" then "TEMPLATE \"" + template + "\""
                else "TEMPLATE \"" + template + "\"" + " TABLESPACE \"" + tablespace + "\"";
    assert RenderOptions(first) == with;
    var os := WithOptions(template, tablespace, collation);
    if collation == "" {
      assert os == first;
    } else {
      RenderWithCollation(first, collation);
      assert os == first + [DbOption("LC_COLLATE", collation, '\''), DbOption("LC_CTYPE", collation, '\'')];
    }
  }
}

=== FILE: strings.dfy ===
/** String helpers with the semantics of the Ruby `String` methods the scripts use. */
module Strings {

  import opened Wrappers

  predicate HasPrefix(s: string, p: string) {
    |p| <= |s| && s[..|p|] == p
  }

  predicate HasSuffix(s: string, p: string) {
    |p| <= |s| && s[|s| - |p|..] == p
  }

  /** True iff `pat` occurs in `s` as a contiguous substring. */
  predicate Occurs(s: string, pat: string)
    decreases |s|
  {
    HasPrefix(s, pat) || (|s| > 0 && Occurs(s[1..], pat))
  }

  /** Ruby's `s.gsub(pat, rep)` for a literal, non-empty pattern: occurrences are
      found left to right and never overlap. */
  function ReplaceAll(s: string, pat: string, rep: string): (r: string)
    requires |pat| > 0
    ensures !Occurs(s, pat) ==> r == s
    decreases |s|
  {
    if |s| == 0 then []
    else if HasPrefix(s, pat) then rep + ReplaceAll(s[|pat|..], pat, rep)
    else [s[0]] + ReplaceAll(s[1..], pat, rep)
  }

  /** A pattern whose first character appears nowhere else cannot overlap itself. */
  predicate Unbordered(pat: string) {
    |pat| > 0 && pat[0] !in pat[1..]
  }

  /** A non-empty prefix free of an unbordered pattern cannot start an occurrence
      that runs into the pattern placed after it. */
  lemma NoOccurrenceAtSeam(a: string, pat: string, b: string)
    requires Unbordered(pat)
    requires |a| > 0 && !HasPrefix(a, pat)
    ensures !HasPrefix(a + pat + b, pat)
  {
    var s := a + pat + b;
    if |a| < |pat| {
      assert s[|a|] == pat[0];
      assert s[..|pat|][|a|] != pat[|a|] by {
        assert pat[|a|] == pat[1..][|a| - 1];
      }
    } else {
      assert s[..|pat|] == a[..|pat|];
    }
  }

  /** The leftmost occurrence is the one replaced: a prefix free of the pattern is
      kept, the occurrence becomes `rep`, and replacement continues after it. */
  lemma {:induction false} ReplaceAllLeftmost(a: string, pat: string, rep: string, b: string)
    requires Unbordered(pat)
    requires !Occurs(a, pat)
    ensures ReplaceAll(a + pat + b, pat, rep) == a + rep + ReplaceAll(b, pat, rep)
    decreases |a|
  {
    var s := a + pat + b;
    if |a| == 0 {
      assert s == pat + b;
      assert HasPrefix(s, pat);
      assert s[|pat|..] == b;
    } else {
      NoOccurrenceAtSeam(a, pat, b);
      assert s[1..] == a[1..] + pat + b;
      ReplaceAllLeftmost(a[1..], pat, rep, b);
      assert [s[0]] + (a[1..] + rep + ReplaceAll(b, pat, rep)) == a + rep + ReplaceAll(b, pat, rep);
    }
  }

  /** The last index `j` in `[lo, hi)` with `s[j] == c`. */
  function LastIndexIn(s: string, c: char, lo: nat, hi: nat): (r: Option<nat>)
    requires hi <= |s|
    ensures r.Some? ==> lo <= r.value < hi && s[r.value] == c
    ensures r.Some? ==> forall j :: r.value < j < hi ==> s[j] != c
    ensures r.None? ==> forall j :: lo <= j < hi ==> s[j] != c
    decreases hi
  {
    if hi <= lo then None
    else if s[hi - 1] == c then Some(hi - 1)
    else LastIndexIn(s, c, lo, hi - 1)
  }

  /** Characters past `hi` do not matter to the search below `hi`. */
  lemma {:induction false} LastIndexInAppend(s: string, t: string, c: char, lo: nat, hi: nat)
    requires hi <= |s|
    ensures LastIndexIn(s + t, c, lo, hi) == LastIndexIn(s, c, lo, hi)
    decreases hi
  {
    if hi > lo {
      assert (s + t)[hi - 1] == s[hi - 1];
      LastIndexInAppend(s, t, c, lo, hi - 1);
    }
  }

  /** A stretch without `c` at the top of the range can be cut off. */
  lemma {:induction false} LastIndexInSkip(s: string, c: char, lo: nat, mid: nat, hi: nat)
    requires mid <= hi <= |s|
    requires forall j :: mid <= j < hi ==> s[j] != c
    ensures LastIndexIn(s, c, lo, hi) == LastIndexIn(s, c, lo, mid)
    decreases hi
  {
    if hi > mid && hi > lo {
      LastIndexInSkip(s, c, lo, mid, hi - 1);
    }
  }

  /** Ruby's `String#chomp(suffix)` for a non-empty suffix that is not a line separator. */
  function ChompSuffix(s: string, suffix: string): (r: string)
    ensures HasSuffix(s, suffix) ==> r + suffix == s
    ensures !HasSuffix(s, suffix) ==> r == s
  {
    if HasSuffix(s, suffix) then s[..|s| - |suffix|] else s
  }

  /** Ruby's `String#chomp("")`: drops every trailing "\n" or "\r\n", never a lone "\r". */
  function ChompNewlines(s: string): (r: string)
    ensures '\n' !in s ==> r == s
    ensures |r| == 0 || r[|r| - 1] != '\n'
    decreases |s|
  {
    if |s| > 0 && s[|s| - 1] == '\n' then
      if |s| > 1 && s[|s| - 2] == '\r' then ChompNewlines(s[..|s| - 2])
      else ChompNewlines(s[..|s| - 1])
    else s
  }

  /** Ruby's `String#chomp(arg)`, where an empty argument means "trailing newlines". */
  function Chomp(s: string, arg: string): string {
    if arg == "" then ChompNewlines(s) else ChompSuffix(s, arg)
  }

  /** The characters Ruby's `String#strip` removes. */
  predicate IsSpace(c: char) {
    c == ' ' || c == '\t' || c == '\n' || c == '\U{000B}' || c == '\U{000C}' || c == '\r' || c == '\0'
  }

  /** Ruby's `s.strip.empty?`. */
  predicate IsBlank(s: string) {
    forall i :: 0 <= i < |s| ==> IsSpace(s[i])
  }

  function LowerChar(c: char): (r: char)
    ensures 'A' <= c <= 'Z' ==> 'a' <= r <= 'z'
    ensures !('A' <= c <= 'Z') ==> r == c
  {
    if 'A' <= c <= 'Z' then (c as int + 32) as char else c
  }

  /** `String#downcase`, restricted to the ASCII letters. */
  function Downcase(s: string): (r: string)
    ensures |r| == |s|
    ensures forall i :: 0 <= i < |s| ==> r[i] == LowerChar(s[i])
  {
    seq(|s|, i requires 0 <= i < |s| => LowerChar(s[i]))
  }

  /** Lower-casing twice changes nothing more. */
  lemma DowncaseIdempotent(s: string)
    ensures Downcase(Downcase(s)) == Downcase(s)
  {
  }

  predicate IsDigit(c: char) {
    '0' <= c <= '9'
  }

  predicate AllDigits(s: string) {
    forall i :: 0 <= i < |s| ==> IsDigit(s[i])
  }

  /** Ruby's `String#to_i` on a string of decimal digits. */
  function DigitsValue(s: string): (r: nat)
    requires AllDigits(s)
    decreases |s|
  {
    if |s| == 0 then 0
    else DigitsValue(s[..|s| - 1]) * 10 + (s[|s| - 1] as int - '0' as int)
  }

  /** Decimal rendering of a natural number, without leading zeros. */
  function NatToDigits(n: nat): (r: string)
    ensures |r| > 0 && AllDigits(r)
    decreases n
  {
    if n < 10 then [('0' as int + n) as char]
    else NatToDigits(n / 10) + [('0' as int + n % 10) as char]
  }

  /** `to_i` reads back the number that `to_s` wrote. */
  lemma {:induction false} DigitsRoundTrip(n: nat)
    ensures DigitsValue(NatToDigits(n)) == n
    decreases n
  {
    var s := NatToDigits(n);
    if n < 10 {
      assert s[..0] == [];
    } else {
      DigitsRoundTrip(n / 10);
      assert s[..|s| - 1] == NatToDigits(n / 10);
    }
  }
}

=== FILE: sync.dfy ===
/** One pass over one data file: `sync_normal`, `sync_gzipped` and the body of the
    `begin … rescue` block in `sync`, which prefers the `.gz` variant, falls back
    to the plain file and applies the missing-file policy. */
module Sync {

  import opened Wrappers
  import opened Transport
  import Paths

  /** The settings a sync run reads: both roots after `connect`, the `--continue`
      flag and the decompressor. */
  datatype Config = Config(
    sourceRoot: string,
    targetRoot: string,
    keepGoing: bool,
    gunzip: Bytes -> Inflate)

  /** One unit of work: a data source, either as configured or as its `.info`
      companion. */
  datatype Item = Item(source: string, isInfo: bool)

  /** The template an item syncs: for the companion, the data source with its
      extension replaced by ".info". */
  function Template(item: Item): string {
    if item.isInfo then Paths.InfoCompanion(item.source) else item.source
  }

  /** What an attempt did with its file. */
  datatype Action =
    | PlainUpToDate
    | PlainCopied
    | GzipUpToDate
    | GzipCopied
    | MissingIgnored
    | MissingLogged

  function CopyFrom(cfg: Config, item: Item): string {
    Paths.Substitute(Template(item), cfg.sourceRoot)
  }

  function CopyTo(cfg: Config, template: string): string {
    Paths.Substitute(template, cfg.targetRoot)
  }

  /** Copy step shared by both paths, reporting "not skipped". */
  function CopyStep(w: World, from: string, to: string): (s: Step<bool>)
    ensures KeepsSource(w, s.world)
    ensures AllTouch(w, s.world, Probed(w, from))
    ensures s.result.Success? ==> !s.result.value
  {
    var c := CopyFile(w, from, to);
    match c.result
    case Failure(e) => Step(c.world, Failure(e))
    case Success(_) => Step(c.world, Success(false))
  }

  /** `sync_normal`: skip when the target exists with the source's size and passes
      the time check, otherwise copy. The result tells whether it skipped. */
  function SyncNormal(cfg: Config, w: World, template: string, copyFrom: string): (s: Step<bool>)
    ensures KeepsSource(w, s.world)
    ensures Extends(w, s.world)
  {
    var copyTo := CopyTo(cfg, template);
    if copyTo !in w.local then CopyStep(w, copyFrom, copyTo)
    else
      var size := SourceSize(w, copyFrom);
      match size.result
      case Failure(e) => Step(size.world, Failure(e))
      case Success(n) =>
        if n != Size(w.local[copyTo]) then CopyStep(size.world, copyFrom, copyTo)
        else
          var cmp := CompareFileTime(size.world, copyFrom, copyTo);
          match cmp.result
          case Failure(e) => Step(cmp.world, Failure(e))
          case Success(same) =>
            if same then Step(cmp.world, Success(true)) else CopyStep(cmp.world, copyFrom, copyTo)
  }

  /** The copy branch of `sync_gzipped`: fetch the `.gz` next to the target file,
      then decompress it into the target file. */
  function FetchGzip(cfg: Config, w: World, gzFrom: string, copyTo: string): (s: Step<bool>)
    ensures KeepsSource(w, s.world)
    ensures AllTouch(w, s.world, Probed(w, gzFrom))
    ensures s.result.Success? ==> !s.result.value
  {
    var gzTo := copyTo + ".gz";
    var c := CopyStep(w, gzFrom, gzTo);
    if c.result.Failure? then c
    else
      var u := Unzip(c.world, cfg.gunzip, gzTo, copyTo);
      match u.result
      case Failure(e) => Step(u.world, Failure(e))
      case Success(_) => Step(u.world, Success(false))
  }

  /** `sync_gzipped`: skip when the target has both the plain file and the `.gz`,
      the `.gz` sizes agree and the source `.gz` passes the time check against
      the target plain file; otherwise copy the `.gz` and decompress it. */
  function SyncGzipped(cfg: Config, w: World, template: string, copyFrom: string): (s: Step<bool>)
    ensures KeepsSource(w, s.world)
    ensures Extends(w, s.world)
  {
    var gzFrom := copyFrom + ".gz";
    var copyTo := CopyTo(cfg, template);
    var gzTo := copyTo + ".gz";
    if copyTo !in w.local || gzTo !in w.local then FetchGzip(cfg, w, gzFrom, copyTo)
    else
      var size := SourceSize(w, gzFrom);
      match size.result
      case Failure(e) => Step(size.world, Failure(e))
      case Success(n) =>
        if n != Size(w.local[gzTo]) then FetchGzip(cfg, size.world, gzFrom, copyTo)
        else
          var cmp := CompareFileTime(size.world, gzFrom, copyTo);
          match cmp.result
          case Failure(e) => Step(cmp.world, Failure(e))
          case Success(same) => if same then Step(cmp.world, Success(true)) else FetchGzip(cfg, cmp.world, gzFrom, copyTo)
  }

  /** No file was fetched between `w` and `w'`. */
  predicate NoFetch(w: World, w': World) {
    |w.calls| <= |w'.calls| && forall i :: |w.calls| <= i < |w'.calls| ==> !w'.calls[i].Fetch?
  }

  /** The skip rule of `sync_normal`: the target exists, the sizes agree and the
      time check passes. */
  predicate PlainIsCurrent(w: World, src: Entry, copyTo: string) {
    && copyTo in w.local
    && Size(src) == Size(w.local[copyTo])
    && TimeCheck(BothLocal(w), src.mtime, w.local[copyTo].mtime)
  }

  /** The skip rule of `sync_gzipped`: the target has the plain file and the `.gz`,
      the `.gz` sizes agree, and the source `.gz` passes the time check against the
      target plain file. */
  predicate GzipIsCurrent(w: World, srcGz: Entry, copyTo: string) {
    && copyTo in w.local
    && copyTo + ".gz" in w.local
    && Size(srcGz) == Size(w.local[copyTo + ".gz"])
    && TimeCheck(BothLocal(w), srcGz.mtime, w.local[copyTo].mtime)
  }

  /** A copy from a source file that the probe reaches replaces the target by the
      source entry, content and mtime alike. */
  lemma CopyStepEffect(w: World, from: string, to: string)
    requires Probed(w, from) in SourceFs(w)
    ensures CopyStep(w, from, to).result == Success(false)
    ensures CopyStep(w, from, to).world.local == w.local[to := SourceFs(w)[Probed(w, from)]]
    ensures AllTouch(w, CopyStep(w, from, to).world, Probed(w, from))
  {
  }

  /** `sync_normal` on a source file the probes reach: it skips, copying nothing,
      exactly when the skip rule holds, and otherwise leaves the target equal to
      the source file. */
  lemma SyncNormalDecides(cfg: Config, w: World, template: string, copyFrom: string)
    requires Probed(w, copyFrom) in SourceFs(w)
    ensures var s := SyncNormal(cfg, w, template, copyFrom);
      var src := SourceFs(w)[Probed(w, copyFrom)];
      && s.result.Success?
      && (s.result.value <==> PlainIsCurrent(w, src, CopyTo(cfg, template)))
      && (s.result.value ==> s.world.local == w.local && NoFetch(w, s.world))
      && (!s.result.value ==> s.world.local == w.local[CopyTo(cfg, template) := src])
      && AllTouch(w, s.world, Probed(w, copyFrom))
  {
    var copyTo := CopyTo(cfg, template);
    if copyTo !in w.local {
      CopyStepEffect(w, copyFrom, copyTo);
    } else {
      var size := SourceSize(w, copyFrom);
      if size.result.value != Size(w.local[copyTo]) {
        CopyStepEffect(size.world, copyFrom, copyTo);
        AllTouchTrans(w, size.world, CopyStep(size.world, copyFrom, copyTo).world, Probed(w, copyFrom));
      } else {
        var cmp := CompareFileTime(size.world, copyFrom, copyTo);
        AllTouchTrans(w, size.world, cmp.world, Probed(w, copyFrom));
        if !cmp.result.value {
          CopyStepEffect(cmp.world, copyFrom, copyTo);
          AllTouchTrans(w, cmp.world, CopyStep(cmp.world, copyFrom, copyTo).world, Probed(w, copyFrom));
        }
      }
    }
  }

  /** The local files after the copy branch of `sync_gzipped` fetched `gz` next to
      `copyTo` and decompressed it: the whole file stamped with the mtime of the
      `.gz`; nothing more after a bad header; after a broken stream, the part that
      was written, stamped with the current time. */
  function AfterFetch(cfg: Config, local: Fs, now: int, gz: Entry, copyTo: string): Fs {
    var withGz := local[copyTo + ".gz" := gz];
    match cfg.gunzip(gz.content)
    case Inflated(c) => withGz[copyTo := Entry(c, gz.mtime)]
    case BadHeader => withGz
    case BadStream(part) => withGz[copyTo := Entry(part, now)]
  }

  /** The copy branch of `sync_gzipped` stores the source `.gz` next to the target
      file and decompresses it; it succeeds exactly when the whole stream inflates,
      and every failure is an exception. */
  lemma FetchGzipEffect(cfg: Config, w: World, gzFrom: string, copyTo: string)
    requires Probed(w, gzFrom) in SourceFs(w)
    ensures var s := FetchGzip(cfg, w, gzFrom, copyTo);
      var gz := SourceFs(w)[Probed(w, gzFrom)];
      && AllTouch(w, s.world, Probed(w, gzFrom))
      && s.world.local == AfterFetch(cfg, w.local, w.now, gz, copyTo)
      && (cfg.gunzip(gz.content).Inflated? ==> s.result == Success(false))
      && (!cfg.gunzip(gz.content).Inflated? ==> s.result.Failure? && s.result.error.Raised?)
  {
    CopyStepEffect(w, gzFrom, copyTo + ".gz");
  }

  /** `sync_gzipped` on a source `.gz` the probes reach: it skips exactly when its
      skip rule holds; otherwise it fetches the `.gz` and decompresses it, and a
      decompression failure is an exception that leaves behind what `AfterFetch`
      describes. */
  lemma SyncGzippedDecides(cfg: Config, w: World, template: string, copyFrom: string)
    requires Probed(w, copyFrom + ".gz") in SourceFs(w)
    ensures var s := SyncGzipped(cfg, w, template, copyFrom);
      var gz := SourceFs(w)[Probed(w, copyFrom + ".gz")];
      var copyTo := CopyTo(cfg, template);
      && AllTouch(w, s.world, Probed(w, copyFrom + ".gz"))
      && (GzipIsCurrent(w, gz, copyTo) ==> s.result == Success(true) && s.world.local == w.local && NoFetch(w, s.world))
      && (!GzipIsCurrent(w, gz, copyTo) ==>
            && s.world.local == AfterFetch(cfg, w.local, w.now, gz, copyTo)
            && (cfg.gunzip(gz.content).Inflated? ==> s.result == Success(false))
            && (!cfg.gunzip(gz.content).Inflated? ==> s.result.Failure? && s.result.error.Raised?))
  {
    var gzFrom := copyFrom + ".gz";
    var copyTo := CopyTo(cfg, template);
    var gzTo := copyTo + ".gz";
    if copyTo !in w.local || gzTo !in w.local {
      FetchGzipEffect(cfg, w, gzFrom, copyTo);
    } else {
      var size := SourceSize(w, gzFrom);
      if size.result.value != Size(w.local[gzTo]) {
        FetchGzipEffect(cfg, size.world, gzFrom, copyTo);
        AllTouchTrans(w, size.world, FetchGzip(cfg, size.world, gzFrom, copyTo).world, Probed(w, gzFrom));
      } else {
        var cmp := CompareFileTime(size.world, gzFrom, copyTo);
        AllTouchTrans(w, size.world, cmp.world, Probed(w, gzFrom));
        if !cmp.result.value {
          FetchGzipEffect(cfg, cmp.world, gzFrom, copyTo);
          AllTouchTrans(w, cmp.world, FetchGzip(cfg, cmp.world, gzFrom, copyTo).world, Probed(w, gzFrom));
        }
      }
    }
  }

  /** Names what a `sync_normal` or `sync_gzipped` step did. */
  function Tag(s: Step<bool>, ifSkipped: Action, ifCopied: Action): (t: Step<Action>)
    ensures t.world == s.world
    ensures t.result.Success? <==> s.result.Success?
    ensures t.result.Failure? ==> t.result.error == s.result.error
    ensures t.result.Success? ==> t.result.value == (if s.result.value then ifSkipped else ifCopied)
  {
    match s.result
    case Failure(e) => Step(s.world, Failure(e))
    case Success(skipped) => Step(s.world, Success(if skipped then ifSkipped else ifCopied))
  }

  /** What an attempt keeps of the source side: the remote files, the clock, and
      a session of the same kind, protocol and folder, as consistent as before. */
  predicate SessionKept(w: World, w': World) {
    && w'.remote == w.remote && w'.remoteDirs == w.remoteDirs && w'.now == w.now
    && (w'.session.LocalSource? <==> w.session.LocalSource?)
    && (w.session.RemoteSource? ==>
          w'.session.protocol == w.session.protocol && w'.session.home == w.session.home)
    && (Consistent(w) ==> Consistent(w'))
  }

  /** The part of an attempt after the `.gz` variant was not found: the plain
      file, or the missing-file policy. */
  function AttemptPlain(cfg: Config, w: World, item: Item): (s: Step<Action>)
    ensures SessionKept(w, s.world)
    ensures Extends(w, s.world)
    ensures s.result.Success? && s.result.value.MissingIgnored? ==> item.isInfo
    ensures s.result.Success? && s.result.value.MissingLogged? ==> !item.isInfo && cfg.keepGoing
  {
    var copyFrom := CopyFrom(cfg, item);
    var plain := SourceExists(w, copyFrom);
    match plain.result
    case Failure(e) => Step(plain.world, Failure(e))
    case Success(found) =>
      if found then
        var r := Tag(SyncNormal(cfg, plain.world, Template(item), copyFrom), PlainUpToDate, PlainCopied);
        ExtendsTrans(w, plain.world, r.world);
        r
      else if item.isInfo then Step(plain.world, Success(MissingIgnored))
      else if cfg.keepGoing then Step(plain.world, Success(MissingLogged))
      else Step(plain.world, Failure(Fatal("File not found: " + copyFrom)))
  }

  /** One attempt at an item: the `.gz` variant wins when the source has it, then
      the plain file; a missing `.info` is ignored, and a missing data file is
      logged under `--continue` and fatal otherwise. A `chdir` that raises ends
      the attempt with that exception. */
  function Attempt(cfg: Config, w: World, item: Item): (s: Step<Action>)
    ensures SessionKept(w, s.world)
    ensures Extends(w, s.world)
    ensures s.result.Success? && s.result.value.MissingIgnored? ==> item.isInfo
    ensures s.result.Success? && s.result.value.MissingLogged? ==> !item.isInfo && cfg.keepGoing
  {
    var copyFrom := CopyFrom(cfg, item);
    var gz := SourceExists(w, copyFrom + ".gz");
    match gz.result
    case Failure(e) => Step(gz.world, Failure(e))
    case Success(found) =>
      var r := if found then Tag(SyncGzipped(cfg, gz.world, Template(item), copyFrom), GzipUpToDate, GzipCopied)
               else AttemptPlain(cfg, gz.world, item);
      ExtendsTrans(w, gz.world, r.world);
      r
  }

  /** Every request `sync_gzipped` makes reads the `.gz` variant. */
  lemma SyncGzippedReadsOnlyGzip(cfg: Config, w: World, template: string, copyFrom: string)
    ensures AllTouch(w, SyncGzipped(cfg, w, template, copyFrom).world, Probed(w, copyFrom + ".gz"))
  {
    var gzFrom := copyFrom + ".gz";
    var copyTo := CopyTo(cfg, template);
    var q := Probed(w, gzFrom);
    if copyTo in w.local && copyTo + ".gz" in w.local {
      var size := SourceSize(w, gzFrom);
      if size.result.Success? {
        if size.result.value != Size(w.local[copyTo + ".gz"]) {
          AllTouchTrans(w, size.world, FetchGzip(cfg, size.world, gzFrom, copyTo).world, q);
        } else {
          var cmp := CompareFileTime(size.world, gzFrom, copyTo);
          AllTouchTrans(w, size.world, cmp.world, q);
          if cmp.result.Success? && !cmp.result.value {
            AllTouchTrans(w, cmp.world, FetchGzip(cfg, cmp.world, gzFrom, copyTo).world, q);
          }
        }
      }
    }
  }

  /** Gzip preference: when the source has the `.gz` variant, no request of the
      attempt reads the plain file. */
  lemma AttemptNeverReadsPlain(cfg: Config, w: World, item: Item)
    requires Reaches(w, CopyFrom(cfg, item))
    requires CopyFrom(cfg, item) + ".gz" in SourceFs(w)
    ensures var s := Attempt(cfg, w, item);
      forall i :: |w.calls| <= i < |s.world.calls| ==> !Touches(s.world.calls[i], CopyFrom(cfg, item))
  {
    var copyFrom := CopyFrom(cfg, item);
    var gzFrom := copyFrom + ".gz";
    Paths.AppendToBasename(copyFrom, ".gz");
    ExistsIntended(w, gzFrom);
    var e := SourceExists(w, gzFrom);
    if e.result.Success? {
      GzipProbeDiffers(e.world, copyFrom);
      var g := SyncGzipped(cfg, e.world, Template(item), copyFrom);
      SyncGzippedReadsOnlyGzip(cfg, e.world, Template(item), copyFrom);
      ExistsReadsOnly(w, gzFrom, copyFrom);
      NoneTouchAfter(w, e.world, g.world, gzFrom, copyFrom);
    }
  }

  /** Gzip preference: when the source has the `.gz` variant, the attempt is
      `sync_gzipped` on it. */
  lemma AttemptPrefersGzip(cfg: Config, w: World, item: Item)
    requires Reaches(w, CopyFrom(cfg, item)) && DirsCover(w)
    requires CopyFrom(cfg, item) + ".gz" in SourceFs(w)
    ensures var s := Attempt(cfg, w, item);
      var gz := SourceFs(w)[CopyFrom(cfg, item) + ".gz"];
      var copyTo := CopyTo(cfg, Template(item));
      && (GzipIsCurrent(w, gz, copyTo) ==> s.result == Success(GzipUpToDate) && s.world.local == w.local)
      && (!GzipIsCurrent(w, gz, copyTo) ==>
            && s.world.local == AfterFetch(cfg, w.local, w.now, gz, copyTo)
            && (cfg.gunzip(gz.content).Inflated? ==> s.result == Success(GzipCopied))
            && (!cfg.gunzip(gz.content).Inflated? ==> s.result.Failure? && s.result.error.Raised?))
  {
    var copyFrom := CopyFrom(cfg, item);
    Paths.AppendToBasename(copyFrom, ".gz");
    FoundFileDirReachable(w, copyFrom + ".gz");
    ExistsIntended(w, copyFrom + ".gz");
    var e := SourceExists(w, copyFrom + ".gz");
    SyncGzippedDecides(cfg, e.world, Template(item), copyFrom);
  }

  /** Without a `.gz` variant, a plain source file gets `sync_normal`. */
  lemma AttemptFallsBackToPlain(cfg: Config, w: World, item: Item)
    requires Reaches(w, CopyFrom(cfg, item)) && DirsCover(w)
    requires CopyFrom(cfg, item) + ".gz" !in SourceFs(w)
    requires CopyFrom(cfg, item) in SourceFs(w)
    ensures var s := Attempt(cfg, w, item);
      var src := SourceFs(w)[CopyFrom(cfg, item)];
      var copyTo := CopyTo(cfg, Template(item));
      && (PlainIsCurrent(w, src, copyTo) ==> s.result == Success(PlainUpToDate) && s.world.local == w.local)
      && (!PlainIsCurrent(w, src, copyTo) ==> s.result == Success(PlainCopied) && s.world.local == w.local[copyTo := src])
  {
    var copyFrom := CopyFrom(cfg, item);
    Paths.AppendToBasename(copyFrom, ".gz");
    FoundFileDirReachable(w, copyFrom);
    ExistsIntended(w, copyFrom + ".gz");
    ExistsSameDirChdir(w, copyFrom + ".gz", copyFrom);
    var e := SourceExists(w, copyFrom + ".gz");
    ExistsIntended(e.world, copyFrom);
    var p := SourceExists(e.world, copyFrom);
    SyncNormalDecides(cfg, p.world, Template(item), copyFrom);
  }

  /** The missing-file policy: with neither variant on the source, nothing is
      copied. When the directory cannot be entered, the `chdir` raises; otherwise
      a missing `.info` is ignored, and a missing data file is logged under
      `--continue` and fatal without it. */
  lemma AttemptMissing(cfg: Config, w: World, item: Item)
    requires Reaches(w, CopyFrom(cfg, item))
    requires CopyFrom(cfg, item) + ".gz" !in SourceFs(w)
    requires CopyFrom(cfg, item) !in SourceFs(w)
    ensures var s := Attempt(cfg, w, item);
      && s.world.local == w.local
      && (ChdirFails(w, CopyFrom(cfg, item)) ==> s.result.Failure? && s.result.error.Raised?)
      && (!ChdirFails(w, CopyFrom(cfg, item)) ==>
            && (item.isInfo ==> s.result == Success(MissingIgnored))
            && (!item.isInfo && cfg.keepGoing ==> s.result == Success(MissingLogged))
            && (!item.isInfo && !cfg.keepGoing ==> s.result.Failure? && s.result.error.Fatal?))
  {
    var copyFrom := CopyFrom(cfg, item);
    Paths.AppendToBasename(copyFrom, ".gz");
    ExistsIntended(w, copyFrom + ".gz");
    var e := SourceExists(w, copyFrom + ".gz");
    if e.result.Success? {
      ExistsSameDirChdir(w, copyFrom + ".gz", copyFrom);
      ExistsIntended(e.world, copyFrom);
    }
  }

  /** A `.gz` whose stream breaks leaves a partial target file stamped with the
      current time. The retry after reconnecting then finds the target plain file
      no older than the source `.gz` and the `.gz` sizes equal, and keeps the
      partial file as up to date. */
  lemma BrokenGzipKeptOnRetry(cfg: Config, w: World, item: Item)
    requires w.session.RemoteSource? && Reaches(w, CopyFrom(cfg, item)) && DirsCover(w)
    requires CopyFrom(cfg, item) + ".gz" in w.remote
    requires var gz := w.remote[CopyFrom(cfg, item) + ".gz"];
      && !GzipIsCurrent(w, gz, CopyTo(cfg, Template(item)))
      && cfg.gunzip(gz.content).BadStream?
      && gz.mtime <= w.now
    ensures var s := Attempt(cfg, w, item);
      var gz := w.remote[CopyFrom(cfg, item) + ".gz"];
      var copyTo := CopyTo(cfg, Template(item));
      && s.result.Failure? && s.result.error.Raised?
      && copyTo in s.world.local
      && s.world.local[copyTo] == Entry(cfg.gunzip(gz.content).partial, w.now)
      && Attempt(cfg, Reconnected(s.world), item).result == Success(GzipUpToDate)
      && Attempt(cfg, Reconnected(s.world), item).world.local == s.world.local
  {
    var copyFrom := CopyFrom(cfg, item);
    var copyTo := CopyTo(cfg, Template(item));
    var gz := w.remote[copyFrom + ".gz"];
    AttemptPrefersGzip(cfg, w, item);
    var s := Attempt(cfg, w, item);
    var w2 := Reconnected(s.world);
    assert |copyTo + ".gz"| != |copyTo|;
    assert GzipIsCurrent(w2, gz, copyTo);
    AttemptPrefersGzip(cfg, w2, item);
  }
}

=== FILE: transport.dfy ===
/** The probes and copies the sync script performs on the source and the target.
    Files live in immutable maps from path to entry; the local filesystem is one
    map shared by a local source and the (always local) target, and a remote
    source is a second map reached through a cached current directory. */
module Transport {

  import opened Wrappers
  import Paths

  newtype Byte = x: int | 0 <= x < 256

  type Bytes = seq<Byte>

  /** A file: its bytes and its modification time in seconds. */
  datatype Entry = Entry(content: Bytes, mtime: int)

  function Size(e: Entry): nat {
    |e.content|
  }

  type Fs = map<string, Entry>

  /** The protocol of a remote source. */
  datatype Protocol = Ftp | Sftp | Https

  /** `$src_fs`: nil for a local source folder, or an open FTP, SFTP or HTTPS
      session. `cwd` is the directory its probes resolve against, `shown` what its
      `getdir` returns, and `home` the folder it connects to. */
  datatype Session = LocalSource | RemoteSource(protocol: Protocol, cwd: string, shown: string, home: string)

  /** A request made to the source, with the path it reaches. */
  datatype Call =
    | Chdir(dir: string)
    | Exists(path: string)
    | SizeOf(path: string)
    | TimeOf(path: string)
    | Fetch(path: string)
    | Reconnect

  /** The local filesystem, the remote filesystem and the directories the remote
      server has, the source session, the local clock, and every request made to
      the source so far. */
  datatype World = World(local: Fs, remote: Fs, remoteDirs: set<string>, session: Session, now: int, calls: seq<Call>)

  /** `Raised` is an exception that `rescue => e` catches; `Fatal` is a
      `$logger.error`, which ends the run. */
  datatype Error = Raised(msg: string) | Fatal(msg: string)

  /** The world after an operation, and its value or error. */
  datatype Step<T> = Step(world: World, result: Result<T, Error>)

  /** What `getdir` returns after `chdir(dir)`: FTP's `pwd` gives the directory;
      SFTP and HTTPS keep it as a path name, with a trailing '/'. */
  function ShownAfterChdir(protocol: Protocol, dir: string): string {
    if protocol == Ftp then dir else dir + "/"
  }

  /** What `getdir` returns right after `connect`: FTP and SFTP change to the
      folder, while a new HTTPS session starts from the empty directory. */
  function ShownAfterConnect(protocol: Protocol, home: string): string {
    if protocol == Https then "" else ShownAfterChdir(protocol, home)
  }

  /** The cursor right after `connect`: the folder for FTP and SFTP, and the
      empty directory of a new HTTPS session. */
  function CwdAfterConnect(protocol: Protocol, home: string): string {
    if protocol == Https then "" else home
  }

  /** The session is as the transports keep it: `getdir` shows the cursor, or the
      session is an HTTPS one still at the empty directory. */
  predicate Consistent(w: World) {
    w.session.RemoteSource? ==>
      || w.session.shown == ShownAfterChdir(w.session.protocol, w.session.cwd)
      || (w.session.protocol == Https && w.session.shown == "" && w.session.cwd == "")
  }

  /** Every remote file lies in a directory the server has. */
  predicate DirsCover(w: World) {
    forall k :: k in w.remote ==> Paths.Dirname(k) in w.remoteDirs
  }

  /** The probes can be aimed at `p`: the source is local, or `p` has a directory
      part with a single '/' after it and the session is consistent. */
  predicate Reaches(w: World, p: string) {
    w.session.LocalSource? || (Paths.HasDir(p) && Consistent(w))
  }

  /** The source side is untouched: remote files, clock and session. */
  predicate KeepsSource(w: World, w': World) {
    w'.remote == w.remote && w'.remoteDirs == w.remoteDirs && w'.session == w.session && w'.now == w.now
  }

  /** Only the session and the request log may differ. */
  predicate SameFiles(w: World, w': World) {
    w'.local == w.local && w'.remote == w.remote && w'.remoteDirs == w.remoteDirs && w'.now == w.now
  }

  /** The files the source session reads. */
  function SourceFs(w: World): Fs {
    if w.session.LocalSource? then w.local else w.remote
  }

  /** Whether both sides of a comparison are local, as in `fs_a.nil? && fs_b.nil?`. */
  predicate BothLocal(w: World) {
    w.session.LocalSource?
  }

  /** The path a size or mtime probe of `p` reaches: `p` itself locally, and only
      the basename, taken from the cached directory, remotely. */
  function Probed(w: World, p: string): string {
    match w.session
    case LocalSource => p
    case RemoteSource(_, cwd, _, _) => Paths.Resolve(cwd, Paths.Basename(p))
  }

  /** True iff the session's cursor lets a probe of `p` reach `p` itself. */
  predicate Sees(w: World, p: string) {
    Probed(w, p) == p
  }

  function Record(w: World, c: Call): World {
    w.(calls := w.calls + [c])
  }

  /** Nothing but the request log changed. */
  predicate OnlyLogged(w: World, w': World) {
    SameFiles(w, w') && w'.session == w.session
    && |w'.calls| >= |w.calls| && w'.calls[..|w.calls|] == w.calls
  }

  /** The log of `w'` continues the log of `w`. */
  predicate Extends(w: World, w': World) {
    |w.calls| <= |w'.calls| && w'.calls[..|w.calls|] == w.calls
  }

  lemma ExtendsTrans(w1: World, w2: World, w3: World)
    requires Extends(w1, w2) && Extends(w2, w3)
    ensures Extends(w1, w3)
  {
    assert w3.calls[..|w1.calls|] == w3.calls[..|w2.calls|][..|w1.calls|];
  }

  /** True iff the request reads the file at `p`. */
  predicate Touches(c: Call, p: string) {
    (c.Exists? || c.SizeOf? || c.TimeOf? || c.Fetch?) && c.path == p
  }

  /** Between `w` and `w'` the log only grew, and every new request read `p`. */
  predicate AllTouch(w: World, w': World, p: string) {
    && |w.calls| <= |w'.calls| && w'.calls[..|w.calls|] == w.calls
    && forall i :: |w.calls| <= i < |w'.calls| ==> Touches(w'.calls[i], p)
  }

  lemma AllTouchTrans(w1: World, w2: World, w3: World, p: string)
    requires AllTouch(w1, w2, p) && AllTouch(w2, w3, p)
    ensures AllTouch(w1, w3, p)
  {
    assert w3.calls[..|w1.calls|] == w3.calls[..|w2.calls|][..|w1.calls|];
    forall i | |w1.calls| <= i < |w3.calls|
      ensures Touches(w3.calls[i], p)
    {
      if i < |w2.calls| {
        assert w3.calls[i] == w3.calls[..|w2.calls|][i];
      }
    }
  }

  /** `file_exists` on the source needs a `chdir` to the directory of `p` first
      when the session is remote and `getdir` does not show that directory. */
  predicate NeedsChdir(w: World, p: string) {
    w.session.RemoteSource? && w.session.shown != Paths.Dirname(p)
  }

  /** That `chdir` raises: FTP's CWD and SFTP's `realpath!` need a directory the
      server has, while HTTPS only records the name. */
  predicate ChdirFails(w: World, p: string) {
    NeedsChdir(w, p) && w.session.protocol != Https && Paths.Dirname(p) !in w.remoteDirs
  }

  /** `file_exists` on the source: a remote session first moves its cursor to the
      directory of `p`, then asks for the basename there. */
  function SourceExists(w: World, p: string): (s: Step<bool>)
    ensures s.result.Success? <==> !ChdirFails(w, p)
    ensures SameFiles(w, s.world)
    ensures !NeedsChdir(w, p) ==> s.world.session == w.session
    ensures NeedsChdir(w, p) && s.result.Success? ==>
      s.world.session == w.session.(cwd := Paths.Dirname(p), shown := ShownAfterChdir(w.session.protocol, Paths.Dirname(p)))
    ensures s.result.Failure? ==>
      s.result.error.Raised? && s.world.session == w.session && s.world.calls == w.calls + [Chdir(Paths.Dirname(p))]
    ensures s.result.Success? ==>
      s.world.calls == w.calls
        + (if NeedsChdir(w, p) then [Chdir(Paths.Dirname(p))] else [])
        + [Exists(Probed(s.world, p))]
    ensures s.result.Success? ==> (s.result.value <==> Probed(s.world, p) in SourceFs(s.world))
    ensures Consistent(w) ==> Consistent(s.world)
    ensures Extends(w, s.world)
  {
    match w.session
    case LocalSource => Step(Record(w, Exists(p)), Success(p in w.local))
    case RemoteSource(protocol, cwd, shown, home) =>
      var dir := Paths.Dirname(p);
      if shown != dir && protocol != Https && dir !in w.remoteDirs then
        Step(Record(w, Chdir(dir)), Failure(Raised("No such directory: " + dir)))
      else
        var w1 := if shown == dir then w
          else Record(w.(session := RemoteSource(protocol, dir, ShownAfterChdir(protocol, dir), home)), Chdir(dir));
        var q := Paths.Resolve(w1.session.cwd, Paths.Basename(p));
        Step(Record(w1, Exists(q)), Success(q in w1.remote))
  }

  /** `file_size` on the source: `File.size`, or the remote size of the basename. */
  function SourceSize(w: World, p: string): (s: Step<nat>)
    ensures OnlyLogged(w, s.world) && s.world.calls == w.calls + [SizeOf(Probed(w, p))]
    ensures AllTouch(w, s.world, Probed(w, p))
    ensures s.result.Success? <==> Probed(w, p) in SourceFs(w)
    ensures s.result.Success? ==> s.result.value == Size(SourceFs(w)[Probed(w, p)])
    ensures s.result.Failure? ==> s.result.error.Raised?
  {
    var q := Probed(w, p);
    var w1 := Record(w, SizeOf(q));
    if q in SourceFs(w) then Step(w1, Success(Size(SourceFs(w)[q])))
    else Step(w1, Failure(Raised("No such file: " + q)))
  }

  /** `file_time` on the source: `File.mtime`, or the remote mtime of the basename. */
  function SourceTime(w: World, p: string): (s: Step<int>)
    ensures OnlyLogged(w, s.world) && s.world.calls == w.calls + [TimeOf(Probed(w, p))]
    ensures AllTouch(w, s.world, Probed(w, p))
    ensures s.result.Success? <==> Probed(w, p) in SourceFs(w)
    ensures s.result.Success? ==> s.result.value == SourceFs(w)[Probed(w, p)].mtime
    ensures s.result.Failure? ==> s.result.error.Raised?
  {
    var q := Probed(w, p);
    var w1 := Record(w, TimeOf(q));
    if q in SourceFs(w) then Step(w1, Success(SourceFs(w)[q].mtime))
    else Step(w1, Failure(Raised("No such file: " + q)))
  }

  /** `file_size` on the target, which is always local. */
  function TargetSize(w: World, p: string): (r: Result<nat, Error>)
    ensures r.Success? <==> p in w.local
    ensures r.Success? ==> r.value == Size(w.local[p])
    ensures r.Failure? ==> r.error.Raised?
  {
    if p in w.local then Success(Size(w.local[p])) else Failure(Raised("No such file: " + p))
  }

  /** `file_time` on the target. */
  function TargetTime(w: World, p: string): (r: Result<int, Error>)
    ensures r.Success? <==> p in w.local
    ensures r.Success? ==> r.value == w.local[p].mtime
    ensures r.Failure? ==> r.error.Raised?
  {
    if p in w.local then Success(w.local[p].mtime) else Failure(Raised("No such file: " + p))
  }

  /** The rule `compare_file_time` applies once both mtimes are known: equal mtimes
      between two local files, and a source no newer than the target otherwise. */
  predicate TimeCheck(bothLocal: bool, a: int, b: int) {
    if bothLocal then a == b else a <= b
  }

  /** `compare_file_time(a, $src_fs, b, $tgt_fs)`: the source mtime is read first. */
  function CompareFileTime(w: World, a: string, b: string): (s: Step<bool>)
    ensures OnlyLogged(w, s.world) && s.world.calls == w.calls + [TimeOf(Probed(w, a))]
    ensures AllTouch(w, s.world, Probed(w, a))
    ensures s.result.Success? <==> Probed(w, a) in SourceFs(w) && b in w.local
    ensures s.result.Success? ==>
      (s.result.value <==> TimeCheck(BothLocal(w), SourceFs(w)[Probed(w, a)].mtime, w.local[b].mtime))
    ensures s.result.Failure? ==> s.result.error.Raised?
  {
    var ta := SourceTime(w, a);
    match ta.result
    case Failure(e) => Step(ta.world, Failure(e))
    case Success(x) =>
      match TargetTime(ta.world, b)
      case Failure(e) => Step(ta.world, Failure(e))
      case Success(y) => Step(ta.world, Success(TimeCheck(BothLocal(w), x, y)))
  }

  /** `copy_file` to the local target. Locally it is a `COPY /Y`, which keeps the
      mtime and whose failure is a `$logger.error`. From a remote session the
      source mtime is read, the basename is downloaded and the copy is stamped
      with that mtime. */
  function CopyFile(w: World, from: string, to: string): (s: Step<()>)
    ensures KeepsSource(w, s.world)
    ensures AllTouch(w, s.world, Probed(w, from))
    ensures s.result.Success? <==> Probed(w, from) in SourceFs(w)
    ensures s.result.Success? ==> s.world.local == w.local[to := SourceFs(w)[Probed(w, from)]]
    ensures s.result.Failure? ==> s.world.local == w.local
    ensures s.result.Failure? ==> (s.result.error.Fatal? <==> BothLocal(w))
  {
    match w.session
    case LocalSource =>
      var w1 := Record(w, Fetch(from));
      if from in w.local then Step(w1.(local := w.local[to := w.local[from]]), Success(()))
      else Step(w1, Failure(Fatal("Error during copy")))
    case RemoteSource(_, _, _, _) =>
      var t := SourceTime(w, from);
      match t.result
      case Failure(e) => Step(t.world, Failure(e))
      case Success(mtime) =>
        var q := Probed(w, from);
        var w1 := Record(t.world, Fetch(q));
        Step(w1.(local := w.local[to := Entry(w.remote[q].content, mtime)]), Success(()))
  }

  /** What gzip decompression makes of some bytes: the whole content, a header
      that is not gzip, or a stream that breaks after some output. */
  datatype Inflate = Inflated(content: Bytes) | BadHeader | BadStream(partial: Bytes)

  /** `unzip_gzipped_file`: the gzip header is read before `to` is opened, so a bad
      header leaves `to` alone; the output is then written into `to`, so a broken
      stream leaves what was written, stamped with the current time; only a
      complete file gets the mtime of the `.gz`. Decompression is a parameter and
      its failures are exceptions. */
  function Unzip(w: World, gunzip: Bytes -> Inflate, gz: string, to: string): (s: Step<()>)
    ensures KeepsSource(w, s.world) && s.world.calls == w.calls
    ensures s.result.Success? <==> gz in w.local && gunzip(w.local[gz].content).Inflated?
    ensures s.result.Success? ==>
      s.world.local == w.local[to := Entry(gunzip(w.local[gz].content).content, w.local[gz].mtime)]
    ensures s.result.Failure? ==> s.result.error.Raised?
    ensures (gz !in w.local || gunzip(w.local[gz].content).BadHeader?) ==> s.world.local == w.local
    ensures gz in w.local && gunzip(w.local[gz].content).BadStream? ==>
      s.world.local == w.local[to := Entry(gunzip(w.local[gz].content).partial, w.now)]
  {
    if gz !in w.local then Step(w, Failure(Raised("No such file: " + gz)))
    else
      match gunzip(w.local[gz].content)
      case BadHeader => Step(w, Failure(Raised("not in gzip format")))
      case BadStream(part) => Step(w.(local := w.local[to := Entry(part, w.now)]), Failure(Raised("invalid compressed data")))
      case Inflated(c) => Step(w.(local := w.local[to := Entry(c, w.local[gz].mtime)]), Success(()))
  }

  /** Reconnecting the source (`connect`) opens a fresh session at its folder. */
  function Reconnected(w: World): (w': World)
    ensures SameFiles(w, w') && w'.calls == w.calls + [Reconnect]
    ensures w.session.RemoteSource? ==>
      w'.session == w.session.(cwd := CwdAfterConnect(w.session.protocol, w.session.home),
                               shown := ShownAfterConnect(w.session.protocol, w.session.home))
    ensures w.session.LocalSource? ==> w'.session == LocalSource
    ensures Consistent(w')
  {
    match w.session
    case LocalSource => Record(w, Reconnect)
    case RemoteSource(protocol, _, _, home) =>
      var reopened := RemoteSource(protocol, CwdAfterConnect(protocol, home), ShownAfterConnect(protocol, home), home);
      Record(w.(session := reopened), Reconnect)
  }

  /** The directory of a path with a single '/' before its file name is never
      shown by a session that keeps a trailing '/'; so when a consistent session
      shows that directory, the cursor is that directory. */
  lemma ShownIsCursor(w: World, p: string)
    requires w.session.RemoteSource? && Consistent(w) && Paths.HasDir(p)
    requires w.session.shown == Paths.Dirname(p)
    ensures w.session.cwd == Paths.Dirname(p)
    ensures w.session.protocol != Sftp
  {
  }

  /** After a successful `file_exists(p)` the probes of `p` reach `p` itself
      whenever they can be aimed at it. */
  lemma ExistsPositionsCursor(w: World, p: string)
    requires Reaches(w, p)
    ensures SourceExists(w, p).result.Success? ==> Sees(SourceExists(w, p).world, p)
  {
    var s := SourceExists(w, p);
    if w.session.RemoteSource? && s.result.Success? {
      if !NeedsChdir(w, p) {
        ShownIsCursor(w, p);
      }
      Paths.ProbeReachesFile(p, s.world.session.cwd);
    }
  }

  /** A remote probe of `p` reaches `p` exactly when the cursor is the directory
      of `p`: any other directory makes the size and mtime probes read another file. */
  lemma SeesIffCursorAtDirname(w: World, p: string)
    requires w.session.RemoteSource? && '/' in p
    ensures Sees(w, p) <==> w.session.cwd == Paths.Dirname(p)
  {
    Paths.ProbeReachesFile(p, w.session.cwd);
  }

  /** A second `file_exists` in the same directory succeeds. It issues no `chdir`
      on FTP, whose `pwd` shows the directory; SFTP and HTTPS keep a trailing '/'
      that `File.dirname` never has, so they issue the `chdir` again whenever
      the first call did. */
  lemma ExistsSameDirChdir(w: World, p: string, p2: string)
    requires Reaches(w, p) && Paths.Dirname(p2) == Paths.Dirname(p)
    requires SourceExists(w, p).result.Success?
    ensures var w1 := SourceExists(w, p).world;
      && SourceExists(w1, p2).result.Success?
      && (NeedsChdir(w1, p2) <==> NeedsChdir(w, p) && w.session.protocol != Ftp)
  {
    var w1 := SourceExists(w, p).world;
    var dir := Paths.Dirname(p);
    if w.session.RemoteSource? && NeedsChdir(w, p) && w.session.protocol != Ftp {
      assert |w1.session.shown| == |dir| + 1;
    }
  }

  /** When the probes can be aimed at `p`, `file_exists(p)` fails only on a
      directory the server lacks, and otherwise answers for `p` itself and leaves
      the probes reaching `p`. */
  lemma ExistsIntended(w: World, p: string)
    requires Reaches(w, p)
    ensures var s := SourceExists(w, p);
      && (s.result.Success? <==> !ChdirFails(w, p))
      && (s.result.Success? ==> (s.result.value <==> p in SourceFs(w)) && Sees(s.world, p))
      && SourceFs(s.world) == SourceFs(w)
      && BothLocal(s.world) == BothLocal(w)
      && Reaches(s.world, p)
  {
    ExistsPositionsCursor(w, p);
  }

  /** A remote file lies in a directory the server has, so under `DirsCover`
      the `chdir` towards an existing file never fails. */
  lemma FoundFileDirReachable(w: World, p: string)
    requires DirsCover(w) && p in SourceFs(w)
    ensures !ChdirFails(w, p)
  {
  }

  /** The probe of the `.gz` variant reaches the plain file's probe path plus ".gz",
      so it never reads the plain file. */
  lemma GzipProbeDiffers(w: World, p: string)
    ensures Probed(w, p + ".gz") == Probed(w, p) + ".gz"
    ensures Probed(w, p + ".gz") != Probed(w, p)
  {
    if w.session.RemoteSource? {
      Paths.AppendToBasename(p, ".gz");
    }
  }

  /** Requests that all read `q` do not read any other file. */
  lemma NoneTouchAfter(w: World, e: World, s: World, q: string, p: string)
    requires Extends(w, e) && AllTouch(e, s, q) && q != p
    requires forall i :: |w.calls| <= i < |e.calls| ==> !Touches(e.calls[i], p)
    ensures forall i :: |w.calls| <= i < |s.calls| ==> !Touches(s.calls[i], p)
  {
    forall i | |w.calls| <= i < |s.calls|
      ensures !Touches(s.calls[i], p)
    {
      if i < |e.calls| {
        assert s.calls[i] == s.calls[..|e.calls|][i];
      }
    }
  }

  /** `file_exists(p)` reads no file but the one its probe reaches. */
  lemma ExistsReadsOnly(w: World, p: string, r: string)
    requires r != Probed(SourceExists(w, p).world, p)
    ensures var e := SourceExists(w, p).world;
      forall i :: |w.calls| <= i < |e.calls| ==> !Touches(e.calls[i], r)
  {
  }
}

=== FILE: version.dfy ===
/** The build's version and database name, and how each is derived from the
    other: setting a version names the database `prefix-product-version` unless
    a name was given, and a version can be recovered from such a name. */
module Versioning {

  import opened Wrappers
  import opened Strings

  /** The version-control system the project lives in, with the revision text
      that replaces a `#` marker (the head revision or the commit hash). */
  datatype Vcs = NoVcs | Svn(headRevision: string) | Git(hash: string)

  /** The settings `set_version`, `set_database_name` and `ensure_version`
      read and write. */
  datatype Names = Names(
    prefix: string,
    product: string,
    vcs: Vcs,
    version: Option<string>,
    databaseName: Option<string>)

  /** Every `#` in `s` replaced by the revision text, when there is one. */
  function ExpandRevision(s: string, vcs: Vcs): (r: string)
    ensures '#' !in s || vcs.NoVcs? ==> r == s
  {
    if '#' !in s then s
    else match vcs
      case NoVcs => s
      case Svn(rev) => ReplaceAll(s, "#", rev)
      case Git(hash) => ReplaceAll(s, "#", hash)
  }

  /** Replacing a one-character pattern by text without that character leaves
      none of it behind. */
  lemma {:induction false} ReplaceCharRemovesIt(s: string, c: char, rep: string)
    requires c !in rep
    ensures c !in ReplaceAll(s, [c], rep)
    decreases |s|
  {
    if |s| > 0 {
      if HasPrefix(s, [c]) {
        ReplaceCharRemovesIt(s[1..], c, rep);
      } else {
        assert s[0] != c;
        ReplaceCharRemovesIt(s[1..], c, rep);
      }
    }
  }

  /** The revision text holds no `#` of its own. */
  predicate RevisionUnmarked(vcs: Vcs) {
    (vcs.Svn? ==> '#' !in vcs.headRevision) && (vcs.Git? ==> '#' !in vcs.hash)
  }

  /** Under version control, no `#` marker survives expansion unless the
      revision text itself holds one. */
  lemma ExpandRemovesMarkers(s: string, vcs: Vcs)
    ensures RevisionUnmarked(vcs) && !vcs.NoVcs? ==> '#' !in ExpandRevision(s, vcs)
  {
    match vcs
    case NoVcs =>
    case Svn(rev) => if '#' !in rev { ReplaceCharRemovesIt(s, '#', rev); }
    case Git(hash) => if '#' !in hash { ReplaceCharRemovesIt(s, '#', hash); }
  }

  /** `set_database_name`: the given name, with a `#` marker expanded under
      version control, and nothing else changed. */
  function SetDatabaseName(st: Names, name: string): (r: Names)
    ensures r.databaseName.Some?
    ensures '#' !in name || st.vcs.NoVcs? ==> r.databaseName == Some(name)
    ensures RevisionUnmarked(st.vcs) && !st.vcs.NoVcs? ==> '#' !in r.databaseName.value
    ensures r.version == st.version && r.prefix == st.prefix && r.product == st.product && r.vcs == st.vcs
  {
    ExpandRemovesMarkers(name, st.vcs);
    st.(databaseName := Some(ExpandRevision(name, st.vcs)))
  }

  const MissingNameError := "Use --database-name to supply a database name, or --version"

  /** `get_database_name`: the name set so far, or the exception
      `ensure_database_name` raises when none has been set. */
  function GetDatabaseName(databaseName: Option<string>): (r: Result<string, string>)
    ensures r.Success? <==> databaseName.Some?
    ensures r.Success? ==> r.value == databaseName.value
    ensures r.Failure? ==> r.error == MissingNameError
  {
    match databaseName
    case Some(name) => Success(name)
    case None => Failure(MissingNameError)
  }

  /** Once `set_database_name` or `set_version` has run, the guard passes and
      hands back the name that was set. */
  lemma NamedPassesGuard(st: Names, name: string, v: string)
    ensures GetDatabaseName(SetDatabaseName(st, name).databaseName) == Success(ExpandRevision(name, st.vcs))
    ensures GetDatabaseName(SetVersion(st, v).databaseName).Success?
    ensures st.databaseName.Some? ==> GetDatabaseName(SetVersion(st, v).databaseName) == Success(st.databaseName.value)
  {
  }

  /** The part of a default database name before the version. */
  function NamePrefix(prefix: string, product: string): string {
    prefix + "-" + product + "-"
  }

  /** The database name `set_version` chooses when none was given. */
  function DefaultName(prefix: string, product: string, version: string): string {
    NamePrefix(prefix, product) + version
  }

  /** `set_version`: records the version, with `#` expanded, and names the
      database after it when no name was given; a given name is kept. */
  function SetVersion(st: Names, v: string): (r: Names)
    ensures r.version == Some(ExpandRevision(v, st.vcs))
    ensures r.databaseName.Some?
    ensures st.databaseName.Some? ==> r.databaseName == st.databaseName
    ensures r.prefix == st.prefix && r.product == st.product && r.vcs == st.vcs
  {
    var version := ExpandRevision(v, st.vcs);
    var st' := st.(version := Some(version));
    if st.databaseName.None? then SetDatabaseName(st', DefaultName(st.prefix, st.product, version))
    else st'
  }

  /** The version read off a database name that starts with `prefix-product-`
      and has something after it. */
  function DeriveVersion(prefix: string, product: string, name: string): (r: Option<string>)
    ensures r.Some? ==> |r.value| > 0
  {
    var p := NamePrefix(prefix, product);
    if HasPrefix(name, p) && |name| > |p| then Some(name[|p|..]) else None
  }

  /** A version is derived from a name exactly when the name is the default name
      for that version, and the version is not empty. */
  lemma DeriveVersionIff(prefix: string, product: string, name: string, v: string)
    ensures DeriveVersion(prefix, product, name) == Some(v)
        <==> v != "" && name == DefaultName(prefix, product, v)
  {
    var p := NamePrefix(prefix, product);
    if v != "" && name == DefaultName(prefix, product, v) {
      assert name[..|p|] == p;
      assert name[|p|..] == v;
    }
  }

  /** `ensure_version`: with no version set, one is derived from the database
      name if that has the default form; then it raises if there is still none. */
  function EnsureVersion(st: Names): (r: Result<Names, string>)
    ensures r.Success? <==>
      st.version.Some? || (st.databaseName.Some? && DeriveVersion(st.prefix, st.product, st.databaseName.value).Some?)
    ensures st.version.Some? ==> r == Success(st)
    ensures r.Success? ==> r.value.version.Some? && r.value.databaseName == st.databaseName
    ensures r.Failure? ==> r.error == "Use --version to supply a version"
  {
    var st' :=
      if st.version.None? && st.databaseName.Some? then
        match DeriveVersion(st.prefix, st.product, st.databaseName.value)
        case Some(v) => SetVersion(st, v)
        case None => st
      else st;
    if st'.version.None? then Failure("Use --version to supply a version") else Success(st')
  }

  /** Round trip: a version set before any database name gives the default name
      for the expanded version, and a later run given only that name recovers
      the same settings. Under version control the prefix, the product and the
      revision text must hold no `#`, or the name would be expanded once more. */
  lemma VersionRoundTrip(st: Names, v: string)
    requires st.version.None? && st.databaseName.None?
    requires !st.vcs.NoVcs? ==> '#' !in st.prefix && '#' !in st.product
    requires RevisionUnmarked(st.vcs)
    requires ExpandRevision(v, st.vcs) != ""
    ensures var named := SetVersion(st, v);
      && named.databaseName == Some(DefaultName(st.prefix, st.product, ExpandRevision(v, st.vcs)))
      && EnsureVersion(named.(version := None)) == Success(named)
  {
    var e := ExpandRevision(v, st.vcs);
    ExpandRemovesMarkers(v, st.vcs);
    var name := DefaultName(st.prefix, st.product, e);
    if !st.vcs.NoVcs? {
      assert '#' !in name;
    }
    DeriveVersionIff(st.prefix, st.product, name, e);
  }

  /** An empty version cannot be recovered: its default name is all prefix. */
  lemma EmptyVersionNotRecovered(st: Names)
    requires st.version.None? && st.databaseName.None?
    requires '#' !in st.prefix && '#' !in st.product
    ensures EnsureVersion(SetVersion(st, "").(version := None)).Failure?
  {
    var name := DefaultName(st.prefix, st.product, "");
    assert '#' !in name;
    assert name == NamePrefix(st.prefix, st.product);
  }
}

=== FILE: wrappers.dfy ===
/** Failure-carrying results shared by every module of the model. */
module Wrappers {

  datatype Option<+T> = None | Some(value: T)

  /** Either a value or the error that the Ruby code raises or logs instead. */
  datatype Result<+R, +E> = Success(value: R) | Failure(error: E)
}
